=== FILE: README.md ===
# Product listing backend — a Dafny model

This project models the request-handling core of `backend_v2`, an Express
service over a SQL Server `PRODUCTS` table. It covers:

- **Product model** (`product_model.dfy`, with `sql.dfy`). `getPaginatedProducts`
  and `getTotalProductCount` each build their own ordered list of bound
  WHERE-clause predicates from optional filters. `getPaginatedProducts` also
  whitelists the ORDER BY column and direction and binds the
  `OFFSET`/`FETCH` window. `getAllProducts` and `searchProducts` use fixed
  statements. `getProductById`, `productExists` and `deleteProduct` work
  over a store of rows keyed by id. Every failure is re-thrown as a new
  `Error` whose message starts with the name of the operation.
- **Controller** (`product_controller.dfy`). `getProducts` normalises the
  query string: page and limit with their `|| default`, the frontend sort
  keys, and range parameters that become `null` when empty. It then picks
  the by-id, `all=1` or paginated path. `searchProducts` refuses a blank
  term.
- **Response envelopes** (`response.dfy`). `successResponse`,
  `errorResponse` and `paginatedResponse`, including the
  `Math.ceil(total / limit)` page count and the next/previous flags.
- **Validators** (`validator.dfy`). `validateProduct` collects errors in
  the order name, price, stock. Also `validateId`, the angle-bracket
  removal of `sanitizeInput`, and `validateBody`.
- **Error handler** (`error_handler.dfy`). The fixed-priority
  classification of `errorHandler` (connection message, then `EREQUEST`
  code, then `ValidationError` name, then internal error) and
  `notFoundHandler`.

`js_value.dfy` and `js_string.dfy` hold the JavaScript semantics the core
relies on:

- truthiness and `||` on query values and body fields;
- `String(x)` and `Number(x)`;
- `String.prototype.trim` with the ECMAScript white-space set;
- `includes`;
- ASCII `toUpperCase`;
- UTF-16 length;
- `Error` objects.

The runtime's `parseInt`, `parseFloat`, `Number(string)` and
`String(number)` are an abstract `Runtime` record of functions, passed in
as a parameter. Each returns `None` where JavaScript returns `NaN`. The
database is the `Db` record:

- a map of rows by id, for the single-row operations;
- two oracle functions that return rows, a count or a thrown error for a
  listing or count statement.

The development flag of the error handler is a boolean parameter.

Two behaviours of the code are modelled as written:

- A negative `page` or `limit` is passed through unclamped. A negative
  page with a positive limit gives a negative offset, and a negative limit
  is passed through as the FETCH count.
- The paginated answer carries `message: false`. `getProducts` passes seven
  arguments to the six-parameter `paginatedResponse`.

Two behaviours of the code are easy to miss, and the model keeps both:

- `getProducts` passes the search term `q` to the model untrimmed.
- A non-empty range parameter that does not parse still adds its
  predicate, with a NaN value. It is not dropped.

A consequence the lemmas make explicit is
`ProductController.ListingNeverAnswersQueryError`. The model re-throws
store errors as plain `Error`s without a `code`, so the handler's
`EREQUEST` branch never fires for a listing failure. Such a failure is
answered 503 or 500 "Internal server error".

## Model

| member | source | states |
|---|---|---|
| `ProductModel.PaginatedPredicates` | backend_v2/src/models/product.model.js:24-53 | The listing query's predicates are exactly those of the emitting filters, taken in the fixed slot order (the independent `Selected` reference) |
| `ProductModel.CountPredicates` | backend_v2/src/models/product.model.js:98-127 | The separately written count builder also yields exactly the emitting filters' predicates in slot order |
| `ProductModel.PredicateParity` | backend_v2/src/models/product.model.js:24-53 | For every filter set, the count query's predicate list and bindings equal the listing query's |
| `ProductModel.PredicateIffFilterPresent` | backend_v2/src/models/product.model.js:30-53 | A numeric bound adds a predicate exactly when it is not null/undefined, so 0 and NaN still filter; the dates add one exactly when truthy; the predicate binds the filter's own value |
| `ProductModel.SearchBoundAsPattern` | backend_v2/src/models/product.model.js:26-29 | A name predicate appears exactly for a non-empty term and is bound as `%term%`; with an empty term no predicate touches PRODUCTNAME |
| `ProductModel.SelectedHasParam` | backend_v2/src/models/product.model.js:24-53 | In the slot reference, a predicate for a slot's parameter occurs exactly when the slot is listed and emits |
| `ProductModel.SelectedOrdered` | backend_v2/src/models/product.model.js:24-53 | In the slot reference, slots listed in increasing rank give predicates whose parameters strictly increase in the fixed order |
| `ProductModel.PredicatesInFixedOrder` | backend_v2/src/models/product.model.js:24-53 | Predicates appear in strictly increasing order search, priceMin, priceMax, stockMin, stockMax, dateFrom, dateTo |
| `ProductModel.NoFiltersNoPredicates` | backend_v2/src/models/product.model.js:22-53 | The predicate list is empty exactly when no filter is present, so the WHERE clause is just `1=1` |
| `ProductModel.SanitizeSortBy` | backend_v2/src/models/product.model.js:56-59 | The interpolated column, upper-cased, is always whitelisted; a column whose upper-case form is whitelisted is kept as written, and every other column becomes PRODUCTID |
| `ProductModel.SanitizeSortOrder` | backend_v2/src/models/product.model.js:62-64 | The interpolated direction is ASC or DESC in some case; a valid direction is kept as written, and every other direction becomes DESC |
| `ProductModel.SortTokensAreSafe` | backend_v2/src/models/product.model.js:56-64 | Whatever the caller sent, the ORDER BY tokens hold only ASCII letters and underscores, and sanitising again changes nothing |
| `ProductModel.GetPaginatedProducts` | backend_v2/src/models/product.model.js:8-74 | The listing query uses the filter predicates and the window offset `(page - 1) * limit`, with page 1 and limit 5 for undefined arguments; an undefined sortBy or sortOrder gives PRODUCTID or DESC, and a defined one reaches the query through its sanitiser |
| `ProductModel.GetTotalProductCount` | backend_v2/src/models/product.model.js:86-127 | The count query carries the listing query's predicate list |
| `ProductModel.CountMatchesDataStatement` | backend_v2/src/models/product.model.js:66-74 | The count statement has the listing statement's WHERE text, and the listing binds the same parameters followed by `offset` and `limit` |
| `ProductModel.DataStatement` | backend_v2/src/models/product.model.js:66-74 | The listing SQL holds the WHERE text right after `SELECT *`, followed by `ORDER BY` with the query's sort column and direction as given, then the OFFSET/FETCH window; its bindings are each predicate's parameter name and value in order, then `offset` and `limit` |
| `ProductModel.CountStatement` | backend_v2/src/models/product.model.js:98-129 | The count SQL is `SELECT COUNT(*) as total` followed by the WHERE text; its bindings are exactly the predicates' names and values in order |
| `ProductModel.FilterValuesNeverInText` | backend_v2/src/models/product.model.js:24-80 | Two filter sets with the same filters present and the same sort give byte-identical statement texts: filter values reach the store only as bindings |
| `Sql.ClausesTextIgnoresValues` | backend_v2/src/models/product.model.js:24-53 | The clause text of a predicate list depends only on columns, operators and parameter names |
| `ProductModel.SearchStatement` | backend_v2/src/models/product.model.js:275-286 | The search statement binds exactly the parameter `searchTerm` as `%term%` |
| `ProductModel.SearchTermNeverInText` | backend_v2/src/models/product.model.js:278-280 | The search statement's text is the same for every term |
| `ProductModel.GetProductById` | backend_v2/src/models/product.model.js:159-170 | A row is returned exactly when the parsed id is a key of the store, and it is that key's row |
| `ProductModel.ProductExists` | backend_v2/src/models/product.model.js:261-268 | True exactly when the parsed id names a row |
| `ProductModel.DeleteProduct` | backend_v2/src/models/product.model.js:234-254 | Returns what the by-id lookup returns before deletion |
| `ProductModel.DeleteRemovesExactlyOneRow` | backend_v2/src/models/product.model.js:239-250 | An absent id returns nothing and leaves the store alone; a present one returns the prior row and removes only that id; a second delete finds nothing |
| `ProductModel.Rethrow` | backend_v2/src/models/product.model.js:78-80 | A success passes through; a failure becomes a plain `Error` whose message is the context followed by the original message |
| `ProductModel.RethrowWraps` | backend_v2/src/models/product.model.js:78-80 | A wrapped outcome fails exactly when the original does, and its error is a plain code-less `Error` with the context before the original message |
| `ProductModel.FetchPaginatedProducts` | backend_v2/src/models/product.model.js:76-80 | Succeeds exactly when the store runs the listing statement, returning its rows unchanged; a failure becomes a code-less `Error` "Error fetching paginated products: " plus the store's message |
| `ProductModel.FetchTotalProductCount` | backend_v2/src/models/product.model.js:129-133 | Succeeds exactly when the store counts the count statement, returning its total unchanged; a failure becomes a code-less `Error` "Error getting product count: " plus the store's message |
| `ProductModel.FetchAllProducts` | backend_v2/src/models/product.model.js:143-152 | Succeeds exactly when the store reads every row, returning them unchanged; a failure becomes a code-less `Error` "Error fetching products: " plus the store's message |
| `ProductModel.FetchSearchProducts` | backend_v2/src/models/product.model.js:275-286 | Succeeds exactly when the store runs the search statement, returning its rows unchanged; a failure becomes a code-less `Error` "Error searching products: " plus the store's message |
| `Response.SuccessResponse` | backend_v2/src/utils/response.js:9-22 | Success true, status defaulting to 200, message defaulting to "Success", the data carried, `meta` only when given, never `errors` |
| `Response.ErrorResponse` | backend_v2/src/utils/response.js:31-43 | Success false, status defaulting to 500, message defaulting to "Error occurred", and `errors` present exactly for a non-empty list |
| `Response.TotalPages` | backend_v2/src/utils/response.js:63 | The page count is a whole number exactly when the limit is non-zero; otherwise Infinity or NaN |
| `Response.PaginatedResponse` | backend_v2/src/utils/response.js:54-70 | Status 200; page, limit and total echoed as currentPage, itemsPerPage and totalItems; `hasNextPage == page < totalPages` and `hasPreviousPage == page > 1` |
| `Response.TotalPagesIsCeiling` | backend_v2/src/utils/response.js:63 | For `limit >= 1` the page count is the integer ceiling `(total + limit - 1) / limit`, the least `n` with `n * limit >= total`, so 0 rows give 0 pages |
| `Response.FlagsMatchWindow` | backend_v2/src/utils/response.js:64-65 | For positive page and limit, `hasNextPage` holds exactly when rows remain past `page * limit`, and `hasPreviousPage` exactly when the window does not start at row 0 |
| `Response.TwelveRowsFivePerPage` | backend_v2/src/utils/response.js:59-66 | 12 rows at 5 per page give 3 pages; page 1 has a next page and no previous one, page 3 the reverse |
| `Validator.NameError` | backend_v2/src/middlewares/validator.js:13-18 | No error exactly when the name is a string that is not blank after trimming and has at most 100 UTF-16 units; otherwise "required" for a missing, non-string or blank name, else the length error |
| `Validator.PriceError` | backend_v2/src/middlewares/validator.js:22-34 | No error exactly when the price is present and parses to a number from 0 to 99999999.99; otherwise each error under its condition, first match wins: missing, NaN, negative, too large |
| `Validator.StockError` | backend_v2/src/middlewares/validator.js:38-51 | No error exactly when the stock is present, parses, is an integer and lies from 0 to 2147483647; otherwise each error under its condition, first match wins: missing, NaN or not an integer, negative, too large |
| `Validator.ValidationErrors` | backend_v2/src/middlewares/validator.js:9-51 | At most three errors, each tagged with its field, in the order name, price, stock; a field is listed exactly when its check fails, and with that check's message |
| `Validator.EntriesInOrder` | backend_v2/src/middlewares/validator.js:9-51 | Collecting three optional messages in order lists a field exactly when its message is present, with that message, in the order name, price, stock |
| `Validator.Messages` | backend_v2/src/middlewares/validator.js:56 | The response lists the collected messages one for one, in order |
| `Validator.NoErrorsIffAcceptable` | backend_v2/src/middlewares/validator.js:9-51 | No check fails exactly when the body is acceptable, a single conjunctive definition of the three checks' acceptance conditions |
| `Validator.ValidateProduct` | backend_v2/src/middlewares/validator.js:54-59 | `next` runs exactly for an acceptable body; otherwise 400 "Validation failed" with the messages of every failing check |
| `Validator.TrimKeepsOnlyInputChars` | backend_v2/src/middlewares/validator.js:90 | Every character of a trimmed string occurs in the original |
| `Validator.ValidateId` | backend_v2/src/middlewares/validator.js:65-78 | Passes exactly an id that parses to a positive integer; a missing id gets "ID parameter is required"; every rejection is 400 |
| `Validator.SanitizeName` | backend_v2/src/middlewares/validator.js:88-90 | The result is the bracket-free input with only white space removed at its two ends: a slice of it whose cut-off ends are all white space, and which neither begins nor ends with white space |
| `Validator.SanitizeNameIdempotent` | backend_v2/src/middlewares/validator.js:88-90 | Sanitising a sanitised name changes nothing |
| `Validator.SanitizeInput` | backend_v2/src/middlewares/validator.js:83-93 | A falsy name leaves the body alone; a string name never throws, and a truthy one is sanitised with every other field kept; a truthy non-string name throws a TypeError |
| `Validator.SanitizedNameIsFixed` | backend_v2/src/middlewares/validator.js:83-93 | A body whose name is already sanitised passes through `sanitizeInput` unchanged |
| `Validator.SanitizeInputIdempotent` | backend_v2/src/middlewares/validator.js:83-93 | Applying `sanitizeInput` twice equals applying it once |
| `Validator.ValidateBody` | backend_v2/src/middlewares/validator.js:98-103 | Passes exactly a present body with at least one key; otherwise 400 "Request body is required" |
| `Validator.SanitizeKeepsBodyVerdict` | backend_v2/src/middlewares/validator.js:83-103 | When `sanitizeInput` does not throw it keeps the body's keys, so `validateBody` gives the same verdict before and after it |
| `Validator.AcceptablePassesValidateBody` | backend_v2/src/middlewares/validator.js:98-103 | A body that `validateProduct` accepts has a `name` key and so passes `validateBody` |
| `JsString.Trim` | backend_v2/src/middlewares/validator.js:13-16 | The result is a contiguous slice of the input, with only white space cut away on either side, and does not start or end with white space |
| `JsString.TrimIdempotent` | backend_v2/src/middlewares/validator.js:90 | Trimming twice equals trimming once |
| `JsString.TrimEmptyIffAllWhiteSpace` | backend_v2/src/controllers/product.controller.js:222 | A string trims to empty exactly when every character is white space |
| `JsString.StripAngleBrackets` | backend_v2/src/middlewares/validator.js:89 | A character is in the result exactly when it is in the input and is not `<` or `>`; a bracket-free input is unchanged |
| `JsString.StripDistributes` | backend_v2/src/middlewares/validator.js:89 | Removing the brackets from a concatenation removes them from each part separately and concatenates the results, so the kept characters stay in their order |
| `ErrorHandler.Classify` | backend_v2/src/middlewares/errorHandler.js:16-38 | Each category exactly under its priority condition: connection message, else `EREQUEST` code, else `ValidationError` name, else internal |
| `ErrorHandler.HandleError` | backend_v2/src/middlewares/errorHandler.js:6-47 | 503, 500 "Database query error", 400 with the error's message, or 500 "Internal server error" by category; details `[message]` exactly in development mode and never for a validation error |
| `ErrorHandler.ConnectionTakesPrecedence` | backend_v2/src/middlewares/errorHandler.js:16-23 | A connection message decides the response alone (503), whatever the error's code and name |
| `ErrorHandler.DetailsOnlyInDevelopment` | backend_v2/src/middlewares/errorHandler.js:21-46 | The status is 400, 500 or 503; outside development no response carries details, and a validation error never does |
| `ErrorHandler.ModelErrorsNeverQueryErrors` | backend_v2/src/middlewares/errorHandler.js:26-33 | An error re-thrown by the model is answered as a connection failure or an internal error, never as a query error |
| `ErrorHandler.MentionSurvivesContext` | backend_v2/src/middlewares/errorHandler.js:16 | Prefixing a message that mentions `connection` or `ECONNREFUSED` keeps the mention |
| `ErrorHandler.StoreConnectionFailureIs503` | backend_v2/src/middlewares/errorHandler.js:16-23 | A listing query the store refuses with a connection error is still answered 503 after the model re-throws it |
| `ErrorHandler.NotFound` | backend_v2/src/middlewares/errorHandler.js:52-58 | Always 404, failed, no details, with the message "Route not found: " followed by the method, a space and the URL |
| `ErrorHandler.NotFoundNamesRoute` | backend_v2/src/middlewares/errorHandler.js:52-58 | The URL can be read back from the message after the prefix, the method and a space, so for one method two URLs never get the same not-found answer |
| `ProductController.IntOr` | backend_v2/src/controllers/product.controller.js:30-31 | NaN and 0 give the fallback; every other parsed value, negatives included, passes through |
| `ProductController.FrontendSortKey` | backend_v2/src/controllers/product.controller.js:47-48 | Only `price` and `stock` are changed, and the change never alters the key's upper-case form |
| `ProductController.PriceBound` | backend_v2/src/controllers/product.controller.js:52-53 | Null exactly for a missing or empty value; otherwise the parsed float, NaN included |
| `ProductController.StockBound` | backend_v2/src/controllers/product.controller.js:54-55 | Null exactly for a missing or empty value; otherwise the parsed integer, NaN included |
| `ProductController.DateBound` | backend_v2/src/controllers/product.controller.js:56-57 | Null exactly for a missing or empty value; otherwise the string itself |
| `ProductController.Normalize` | backend_v2/src/controllers/product.controller.js:30-58 | Page and limit are never 0; the `all` flag is the parsed value; the search term is `q` or empty and is not trimmed; each price bound is its parameter through `parseFloat`, each stock bound through `parseInt` and each date bound as sent, null when empty; sortOrder defaults to DESC |
| `ProductController.RequestedId` | backend_v2/src/controllers/product.controller.js:14 | The query's id when truthy, otherwise the route's |
| `ProductController.ById` | backend_v2/src/controllers/product.controller.js:19-25 | One lookup; 404 exactly when no row has the parsed id, and then the "Product not found" error envelope; otherwise 200 with that row |
| `ProductController.Unpaginated` | backend_v2/src/controllers/product.controller.js:63-75 | Only the fixed all-rows statement runs; the handler answers exactly when the read succeeds, with 200, every row and no pagination, and a failure is forwarded as the model's error (the `catch` at lines 100-102) |
| `ProductController.Paginated` | backend_v2/src/controllers/product.controller.js:80-102 | The listing query runs first and the count query only after it succeeds; a failed listing query is forwarded as the model's error, with no count and no page |
| `ProductController.Counted` | backend_v2/src/controllers/product.controller.js:88-102 | After a successful listing the count query is issued; the answer is the paginated envelope over the listed rows and the count, with `message` false, exactly when the count succeeds, and otherwise the count's error is forwarded |
| `ProductController.GetProducts` | backend_v2/src/controllers/product.controller.js:12-103 | Dispatch by id, then `all=1`, then paginated; every answer is well shaped, and every forwarded error is a model error |
| `ProductController.ValidIdSelectsById` | backend_v2/src/controllers/product.controller.js:14-25 | A query id that passes `validateId` (validator.js:65-78) sends `getProducts` down the by-id path with a positive key, whatever the route parameter |
| `ProductController.SearchProducts` | backend_v2/src/controllers/product.controller.js:217-236 | Every answer is well shaped, and every forwarded error is a model error |
| `ProductController.Searched` | backend_v2/src/controllers/product.controller.js:225-235 | One search on the trimmed term; a success is 200 with the found rows, their count and the term as sent in `meta`, and a failure is forwarded as the model's error |
| `ProductController.Serve` | backend_v2/src/controllers/product.controller.js:100-102 | A direct reply is sent unchanged; a forwarded error is answered by the error handler, as a failure |
| `ProductController.ByIdTakesPrecedence` | backend_v2/src/controllers/product.controller.js:14-25 | A truthy id wins over all listing parameters: one lookup, no listing or count query, and 404 "Product not found" exactly when the parsed id names no row |
| `ProductController.PageAndLimitDefaults` | backend_v2/src/controllers/product.controller.js:30-31 | Page is 1 exactly for NaN, 0 or 1, and limit 5 exactly for NaN, 0 or 5; other values pass through to the window unclamped |
| `ProductController.ListingQuery` | backend_v2/src/models/product.model.js:56-74 | The listing query of a normalised request has the window `((page - 1) * limit, limit)` and the sanitised sortBy and sortOrder |
| `ProductController.NegativePageGivesNegativeOffset` | backend_v2/src/models/product.model.js:66 | A negative page with a positive limit reaches the store as a negative offset |
| `ProductController.SortKeyMapping` | backend_v2/src/controllers/product.controller.js:43-48 | sortBy defaults to PRODUCTID; `price` becomes PRICE and `stock` becomes STOCK; every other value passes unchanged; the whitelist verdict is unaffected; sortOrder defaults to DESC |
| `ProductController.UnknownSortFallsBack` | backend_v2/src/controllers/product.controller.js:43-48 | `sortBy=name&sortOrder=up` reaches the store as ORDER BY PRODUCTID DESC |
| `ProductController.EmptyRangeIsNull` | backend_v2/src/controllers/product.controller.js:50-58 | Each filter adds its predicate exactly when its query parameter is non-empty |
| `ProductController.NormalizedSort` | backend_v2/src/controllers/product.controller.js:43-48 | The listing's sortBy is the frontend renaming of `sortBy` or PRODUCTID, and its sortOrder is `sortOrder` or DESC |
| `ProductController.SameFiltersSameSlots` | backend_v2/src/controllers/product.controller.js:35-58 | Requests with non-empty filter parameters in the same places emit the same predicate slots |
| `ProductController.QueryValuesNeverInText` | backend_v2/src/controllers/product.controller.js:35-58 | Requests whose filter parameters are non-empty in the same places, with the same sort, send the same SQL text |
| `ProductController.AllSkipsCountAndPagination` | backend_v2/src/controllers/product.controller.js:63-75 | With `all=1` and no id, only the all-rows statement is issued; the request is answered exactly when it succeeds, and then without pagination |
| `ProductController.DataAndCountShareFilters` | backend_v2/src/controllers/product.controller.js:80-88 | After a successful listing, exactly the two queries run, with equal predicates, the same WHERE text and the same bindings less the window |
| `ProductController.PaginatedMessageIsFalse` | backend_v2/src/controllers/product.controller.js:90-98 | A paginated answer has `message` false and status 200, echoes the normalised page and limit, and has a finite page count |
| `ProductController.ListingNeverAnswersQueryError` | backend_v2/src/middlewares/errorHandler.js:26-33 | A failed listing request is never answered "Database query error"; it is 503 or "Internal server error" |
| `ProductController.ListingConnectionFailureIs503` | backend_v2/src/controllers/product.controller.js:80-102 | A paginated request whose listing query fails with a connection error is answered 503 by the error handler (errorHandler.js), not with a page |
| `ProductController.SearchRejectsBlank` | backend_v2/src/controllers/product.controller.js:221-233 | No model call and 400 exactly for a missing or all-white-space `q`; otherwise one search on the trimmed term, with `q` echoed untrimmed in `meta` |

## Left out

- `server.js`, `app.js`, `routes/product.routes.js` and `config/database.js` are not part of this model. They cover process lifecycle, Express wiring, route registration and connection pooling: I/O with no decision logic.
- The create, update and delete controllers and the model's `createProduct` and `updateProduct` are left out. They only pass validated fields to the store.
- Execution of SQL is left out: rows, LIKE matching and collation. The store is an oracle (`Db.fetch`, `Db.count`) plus a map of rows by id.
- Store failures on the by-id and delete paths are left out. Those paths read the row map directly and cannot throw.
- `ProductModel.GetProductById`: an id that `parseInt` turns into NaN matches no row. The driver's behaviour for a NaN `Int` parameter is not modelled.
- Parsing is abstract. `parseInt`, `parseFloat`, `Number(string)`, `String(number)` and `new Date(...)` are parameters or carried as text. Infinity and IEEE-754 rounding are not modelled: numbers are exact reals.
- Column widths of the bound types are left out: `NVarChar(100)` truncation, `Decimal(10, 2)` rounding and the 32-bit range of `Int`.
- `toUpperCase` maps only ASCII `a`-`z`. Full Unicode case mapping is left out.
- `ProductModel.SanitizeSortBy`: weaker than the code for non-ASCII input. Real `toUpperCase` maps `ı` to `I`, `ſ` to `S` and the ligatures `ﬀ`…`ﬆ` to ASCII letters. So `sortBy=productıd` or `sortBy=ﬆock` passes the whitelist in the code and is interpolated into ORDER BY as sent. The model sends PRODUCTID for these instead, because its `toUpperCase` is ASCII-only.
- `ProductModel.SanitizeSortOrder`: weaker than the code for non-ASCII input. Real `toUpperCase` maps `ſ` to `S`, so `"deſc".toUpperCase()` is `DESC` and `"aſc".toUpperCase()` is `ASC`. The code therefore keeps `sortOrder=deſc` or `aſc` as sent and interpolates it into ORDER BY. The model sends DESC for these instead, because its `toUpperCase` is ASCII-only.
- `ProductModel.SortTokensAreSafe`: holds only under the ASCII-only `toUpperCase`. With full case mapping the ORDER BY token can hold the non-ASCII pre-images listed above. They are still letters and not SQL syntax, but the token is no longer plain ASCII.
- Query-string and body values that are arrays or nested objects are left out. Query values are strings, and body fields are scalars or an opaque object.
- Logging (`console.error`) and the read of `NODE_ENV` are left out. The development flag is a boolean parameter.
- Asynchrony is left out. Each handler is a function from the request and the store to a reply and the model calls it made.


=== FILE: error_handler.dfy ===
/** The last two middlewares: the global error handler, which turns a thrown
    error into a response by a fixed priority of tests, and the 404
    handler for unmatched routes. */
module ErrorHandler {
  import opened Wrappers
  import opened JsValue
  import opened JsString
  import opened Response
  import opened ProductModel

  /** The four kinds of response the error handler can give. */
  datatype Category = Unavailable | QueryFailed | Invalid | Internal

  /** `err.message.includes('connection') || err.message.includes('ECONNREFUSED')`. */
  predicate MentionsConnection(e: JsError) {
    Includes(e.message, "connection") || Includes(e.message, "ECONNREFUSED")
  }

  /** The tests of `errorHandler` in the order it makes them: the message
      first, then the driver's code, then the error's name. */
  function Classify(e: JsError): (c: Category)
    ensures c == Unavailable <==> MentionsConnection(e)
    ensures c == QueryFailed <==> !MentionsConnection(e) && e.code == Some("EREQUEST")
    ensures c == Invalid <==> !MentionsConnection(e) && e.code != Some("EREQUEST") && e.name == "ValidationError"
    ensures c == Internal <==> !MentionsConnection(e) && e.code != Some("EREQUEST") && e.name != "ValidationError"
  {
    if MentionsConnection(e) then Unavailable
    else if e.code == Some("EREQUEST") then QueryFailed
    else if e.name == "ValidationError" then Invalid
    else Internal
  }

  const ConnectionMessage: string := "Database connection error. Please try again later."
  const QueryMessage: string := "Database query error"
  const InternalMessage: string := "Internal server error"

  /** `process.env.NODE_ENV === 'development' ? [err.message] : null`. */
  function Details(e: JsError, development: bool): Option<seq<string>> {
    if development then Some([e.message]) else None
  }

  /** `errorHandler(err, req, res, next)`; `development` stands for
      `NODE_ENV === 'development'`. */
  function HandleError(e: JsError, development: bool): (r: Envelope)
    ensures WellShaped(r) && !r.success
    ensures Classify(e) == Unavailable ==> r.status == 503 && r.message == Text(ConnectionMessage)
    ensures Classify(e) == QueryFailed ==> r.status == 500 && r.message == Text(QueryMessage)
    ensures Classify(e) == Invalid ==> r.status == 400 && r.message == Text(e.message)
    ensures Classify(e) == Internal ==> r.status == 500 && r.message == Text(InternalMessage)
    ensures r.errors.Some? <==> development && Classify(e) != Invalid
    ensures r.errors.Some? ==> r.errors.value == [e.message]
  {
    match Classify(e)
    case Unavailable => ErrorResponse(Some(Text(ConnectionMessage)), Some(503), Details(e, development))
    case QueryFailed => ErrorResponse(Some(Text(QueryMessage)), Some(500), Details(e, development))
    case Invalid => ErrorResponse(Some(Text(e.message)), Some(400), None)
    case Internal => ErrorResponse(Some(Text(InternalMessage)), Some(500), Details(e, development))
  }

  /** A message that mentions the connection decides the response on its
      own: the error's code and name make no difference. */
  lemma ConnectionTakesPrecedence(e: JsError, development: bool, name: string, code: Option<string>)
    requires MentionsConnection(e)
    ensures HandleError(JsError(name, e.message, code), development) == HandleError(e, development)
    ensures HandleError(e, development).status == 503
  {
  }

  /** The handler answers with one of three statuses; outside development
      mode no response carries the error's message as a detail, and a
      validation error never does. */
  lemma DetailsOnlyInDevelopment(e: JsError, development: bool)
    ensures HandleError(e, development).status in {400, 500, 503}
    ensures !development ==> HandleError(e, development).errors.None?
    ensures e.name == "ValidationError" && !MentionsConnection(e) && e.code != Some("EREQUEST") ==>
              HandleError(e, development).errors.None?
  {
  }

  /** Errors re-thrown by the product model carry no code and are named
      `Error`, so they are answered either as a connection failure or as an
      internal error, never as a query error or a validation error. */
  lemma ModelErrorsNeverQueryErrors(e: JsError, development: bool)
    requires IsModelError(e)
    ensures Classify(e) == Unavailable || Classify(e) == Internal
    ensures var r := HandleError(e, development);
            (r.status == 503 && r.message == Text(ConnectionMessage))
            || (r.status == 500 && r.message == Text(InternalMessage))
  {
  }

  /** A connection failure reported by the store is still recognised after
      the model has prefixed the message with its context. */
  lemma {:induction false} MentionSurvivesContext(context: string, e: JsError)
    requires MentionsConnection(e)
    ensures MentionsConnection(NewError(context + e.message))
  {
    var m := context + e.message;
    if Includes(e.message, "connection") {
      var i: nat :| i <= |e.message| && OccursAt(e.message, "connection", i);
      OccursInRight(context, e.message, "connection", i);
      assert OccursAt(m, "connection", |context| + i);
    } else {
      var i: nat :| i <= |e.message| && OccursAt(e.message, "ECONNREFUSED", i);
      OccursInRight(context, e.message, "ECONNREFUSED", i);
      assert OccursAt(m, "ECONNREFUSED", |context| + i);
    }
  }

  /** A listing query that fails because the store refuses the connection
      is answered 503 even though the model re-throws the error. */
  lemma StoreConnectionFailureIs503(db: Db, f: FilterSet, a: PageArgs, development: bool)
    requires db.fetch(DataStatement(GetPaginatedProducts(f, a))).Threw?
    requires MentionsConnection(db.fetch(DataStatement(GetPaginatedProducts(f, a))).error)
    ensures FetchPaginatedProducts(db, f, a).Threw?
    ensures HandleError(FetchPaginatedProducts(db, f, a).error, development).status == 503
  {
    MentionSurvivesContext(PaginatedContext, db.fetch(DataStatement(GetPaginatedProducts(f, a))).error);
  }

  const RouteNotFound: string := "Route not found: "

  /** `notFoundHandler`: 404 with a message naming the request's method and
      URL. */
  function NotFound(verb: string, url: string): (r: Envelope)
    ensures WellShaped(r) && !r.success && r.status == 404 && r.errors.None?
    ensures r.message.Text?
    ensures Includes(r.message.text, verb) && Includes(r.message.text, url)
    ensures |r.message.text| == |RouteNotFound| + |verb| + 1 + |url|
    ensures r.message.text == RouteNotFound + verb + " " + url
  {
    var text := RouteNotFound + verb + " " + url;
    assert OccursAt(text, verb, |RouteNotFound|);
    assert OccursAt(text, url, |RouteNotFound| + |verb| + 1);
    ErrorResponse(Some(Text(text)), Some(404), None)
  }

  /** The not-found message can be read back: for a given method, the URL
      after the prefix, the method and one space is the request's URL, so
      two URLs that get the same answer are the same URL. */
  lemma NotFoundNamesRoute(verb: string, url: string, other: string)
    ensures var m := NotFound(verb, url).message.text;
            m[|RouteNotFound| + |verb| + 1..] == url
    ensures NotFound(verb, url) == NotFound(verb, other) ==> url == other
  {
  }
}

=== FILE: js_string.dfy ===
/** The JavaScript string primitives the core relies on: `trim`,
    `toUpperCase`, `includes`, `replace(/[<>]/g, '')` and UTF-16 `length`. */
module JsString {

  /** The code points ECMAScript's `String.prototype.trim` removes: the
      WhiteSpace and LineTerminator productions. */
  predicate IsWhiteSpace(c: char) {
    || ('\t' <= c <= '\r')
    || c == ' '
    || c == '\U{00A0}'
    || c == '\U{1680}'
    || ('\U{2000}' <= c <= '\U{200A}')
    || c == '\U{2028}'
    || c == '\U{2029}'
    || c == '\U{202F}'
    || c == '\U{205F}'
    || c == '\U{3000}'
    || c == '\U{FEFF}'
  }

  /** `s` with its leading white space removed. */
  function TrimStart(s: string): (r: string)
    ensures |r| <= |s| && r == s[|s| - |r|..]
    ensures r == [] || !IsWhiteSpace(r[0])
    ensures forall i :: 0 <= i < |s| - |r| ==> IsWhiteSpace(s[i])
  {
    if |s| > 0 && IsWhiteSpace(s[0]) then TrimStart(s[1..]) else s
  }

  /** `s` with its trailing white space removed. */
  function TrimEnd(s: string): (r: string)
    ensures |r| <= |s| && r == s[..|r|]
    ensures r == [] || !IsWhiteSpace(r[|r| - 1])
    ensures forall i :: |r| <= i < |s| ==> IsWhiteSpace(s[i])
  {
    if |s| > 0 && IsWhiteSpace(s[|s| - 1]) then TrimEnd(s[..|s| - 1]) else s
  }

  /** Number of white-space characters `trim` drops from the front of `s`. */
  function LeadingSpace(s: string): (n: nat)
    ensures n <= |s|
  {
    |s| - |TrimStart(s)|
  }

  /** `s.trim()`: the slice of `s` left after dropping white space at both
      ends; everything dropped is white space and the slice neither starts
      nor ends with white space. */
  function Trim(s: string): (r: string)
    ensures LeadingSpace(s) + |r| <= |s|
    ensures r == s[LeadingSpace(s)..LeadingSpace(s) + |r|]
    ensures forall k :: 0 <= k < LeadingSpace(s) ==> IsWhiteSpace(s[k])
    ensures forall k :: LeadingSpace(s) + |r| <= k < |s| ==> IsWhiteSpace(s[k])
    ensures r == [] || (!IsWhiteSpace(r[0]) && !IsWhiteSpace(r[|r| - 1]))
  {
    TrimEnd(TrimStart(s))
  }

  lemma TrimIdempotent(s: string)
    ensures Trim(Trim(s)) == Trim(s)
  {
    var t := Trim(s);
    assert TrimStart(t) == t;
    assert TrimEnd(t) == t;
  }

  /** A string is blank when trimming leaves nothing: every character is
      white space. */
  lemma TrimEmptyIffAllWhiteSpace(s: string)
    ensures Trim(s) == [] <==> forall k :: 0 <= k < |s| ==> IsWhiteSpace(s[k])
  {
    var r := Trim(s);
    if r != [] {
      assert s[LeadingSpace(s)] == r[0];
    }
  }

  /** `c.toUpperCase()` restricted to ASCII: `a`-`z` map to `A`-`Z`. */
  function UpperChar(c: char): char {
    if 'a' <= c <= 'z' then (c as int - 32) as char else c
  }

  /** `s.toUpperCase()`, character by character with `UpperChar`. */
  function ToUpperCase(s: string): (r: string)
    ensures |r| == |s|
  {
    seq(|s|, i requires 0 <= i < |s| => UpperChar(s[i]))
  }

  predicate IsAsciiLetterOrUnderscore(c: char) {
    ('A' <= c <= 'Z') || ('a' <= c <= 'z') || c == '_'
  }

  /** A character whose upper-case form is an upper-case letter or `_` was
      itself a letter or `_`. */
  lemma UpperCharPreimage(c: char)
    requires ('A' <= UpperChar(c) <= 'Z') || UpperChar(c) == '_'
    ensures IsAsciiLetterOrUnderscore(c)
  {
  }

  /** `s` occurs in `text` starting at index `i`. */
  predicate OccursAt(text: string, s: string, i: nat) {
    i + |s| <= |text| && text[i..i + |s|] == s
  }

  /** `text.includes(s)`. */
  predicate Includes(text: string, s: string) {
    exists i: nat | i <= |text| :: OccursAt(text, s, i)
  }

  lemma OccursInRight(p: string, m: string, s: string, i: nat)
    requires OccursAt(m, s, i)
    ensures OccursAt(p + m, s, |p| + i)
  {
    assert (p + m)[|p| + i..|p| + i + |s|] == m[i..i + |s|];
  }

  predicate IsAngleBracket(c: char) {
    c == '<' || c == '>'
  }

  /** `s.replace(/[<>]/g, '')`: every other character is kept, in order, and
      no angle bracket is left. */
  function StripAngleBrackets(s: string): (r: string)
    ensures |r| <= |s|
    ensures forall c :: c in r <==> c in s && !IsAngleBracket(c)
    ensures (forall c :: c in s ==> !IsAngleBracket(c)) ==> r == s
  {
    if s == [] then []
    else if IsAngleBracket(s[0]) then StripAngleBrackets(s[1..])
    else [s[0]] + StripAngleBrackets(s[1..])
  }

  /** Stripping works character by character: it distributes over
      concatenation, so every kept character stays in its place relative to
      the others. */
  lemma {:induction false} StripDistributes(a: string, b: string)
    ensures StripAngleBrackets(a + b) == StripAngleBrackets(a) + StripAngleBrackets(b)
    decreases a
  {
    if a != [] {
      assert (a + b)[0] == a[0] && (a + b)[1..] == a[1..] + b;
      StripDistributes(a[1..], b);
    } else {
      assert a + b == b;
    }
  }

  /** A single character is dropped exactly when it is an angle bracket. */
  lemma StripOne(c: char)
    ensures StripAngleBrackets([c]) == if IsAngleBracket(c) then [] else [c]
  {
    assert [c][1..] == [];
  }

  /** Number of UTF-16 code units of `s` (JavaScript's `length`): a code
      point above U+FFFF takes a surrogate pair. */
  function Utf16Length(s: string): (n: nat)
    ensures |s| <= n <= 2 * |s|
  {
    if s == [] then 0
    else (if s[0] as int > 0xFFFF then 2 else 1) + Utf16Length(s[1..])
  }
}

=== FILE: js_value.dfy ===
/** JavaScript values as they reach the core: query-string values, JSON body
    fields, numbers that may be NaN, thrown Error objects, and the runtime's
    number parsing, which the model takes as a parameter. */
module JsValue {
  import opened Wrappers

  /** A JavaScript number produced by parsing: NaN or a finite value. */
  datatype Number = NaN | Finite(value: real)

  function OfInt(n: Option<int>): Number {
    match n
    case Some(v) => Finite(v as real)
    case None => NaN
  }

  function OfReal(n: Option<real>): Number {
    match n
    case Some(v) => Finite(v)
    case None => NaN
  }

  /** The parsing primitives of the JavaScript runtime. Each returns `None`
      where the runtime returns NaN.
      - `parseInt`: the global `parseInt(string)` (radix 10 by default);
      - `parseFloat`: the global `parseFloat(string)`;
      - `stringToNumber`: `Number(string)`;
      - `numberToString`: `String(number)`. */
  datatype Runtime = Runtime(
    parseInt: string -> Option<int>,
    parseFloat: string -> Option<real>,
    stringToNumber: string -> Option<real>,
    numberToString: real -> string)

  /** The parsed query string of a request: a key that is absent from the
      map reads as `undefined`. */
  type Query = map<string, string>

  function Lookup(q: Query, key: string): Option<string> {
    if key in q then Some(q[key]) else None
  }

  /** Truthiness of a query value: defined and non-empty. */
  predicate Truthy(v: Option<string>) {
    v.Some? && v.value != ""
  }

  /** `v || fallback` for a query value. */
  function OrElse(v: Option<string>, fallback: string): (r: string)
    ensures Truthy(v) ==> r == v.value
    ensures !Truthy(v) ==> r == fallback
  {
    if Truthy(v) then v.value else fallback
  }

  /** A field of a JSON request body (`Obj` is any object). */
  datatype Field = Undefined | Null | Bool(b: bool) | Num(n: real) | Str(s: string) | Obj

  /** JavaScript truthiness of a body field. */
  predicate FieldTruthy(f: Field) {
    match f
    case Undefined => false
    case Null => false
    case Bool(b) => b
    case Num(n) => n != 0.0
    case Str(s) => s != ""
    case Obj => true
  }

  /** `String(f)`, the conversion `parseInt` and `parseFloat` apply first. */
  function ToStr(rt: Runtime, f: Field): string {
    match f
    case Undefined => "undefined"
    case Null => "null"
    case Bool(b) => if b then "true" else "false"
    case Num(n) => rt.numberToString(n)
    case Str(s) => s
    case Obj => "[object Object]"
  }

  /** `Number(f)`. */
  function ToNumber(rt: Runtime, f: Field): Option<real> {
    match f
    case Undefined => None
    case Null => Some(0.0)
    case Bool(b) => Some(if b then 1.0 else 0.0)
    case Num(n) => Some(n)
    case Str(s) => rt.stringToNumber(s)
    case Obj => None
  }

  /** `Number.isInteger(x)` for a value produced by `Number`. */
  predicate IsInteger(x: Option<real>) {
    x.Some? && x.value == x.value.Floor as real
  }

  /** An `Error` object: its `name`, `message` and optional `code`. */
  datatype JsError = JsError(name: string, message: string, code: Option<string>)

  /** `new Error(message)`: a plain error, without a code. */
  function NewError(message: string): (e: JsError)
    ensures e.name == "Error" && e.message == message && e.code.None?
  {
    JsError("Error", message, None)
  }

  /** The result of an operation that may throw. */
  datatype Outcome<+T> = Ok(value: T) | Threw(error: JsError)
}

=== FILE: product_controller.dfy ===
/** The read endpoints of `ProductController`: `getProducts`, which
    normalises the query string and dispatches to the by-id, unpaginated or
    paginated path, and `searchProducts`. */
module ProductController {
  import opened Wrappers
  import opened JsValue
  import opened JsString
  import opened Sql
  import opened ProductRow
  import opened ProductModel
  import opened Response
  import opened ErrorHandler
  import Validator

  /** `parseInt(v)` of a query value; `parseInt(undefined)` is NaN. */
  function ParseIntOf(rt: Runtime, v: Option<string>): Option<int> {
    if v.Some? then rt.parseInt(v.value) else None
  }

  /** `n || fallback` for a number produced by `parseInt`: NaN and 0 are
      falsy. */
  function IntOr(n: Option<int>, fallback: int): (r: int)
    ensures n.None? || n.value == 0 ==> r == fallback
    ensures n.Some? && n.value != 0 ==> r == n.value
  {
    if n.Some? && n.value != 0 then n.value else fallback
  }

  /** The frontend's lower-case sort keys mapped to their columns; every
      other key is passed on unchanged. */
  function FrontendSortKey(key: string): (r: string)
    ensures r != key <==> key == "price" || key == "stock"
    ensures ToUpperCase(r) == ToUpperCase(key)
  {
    if key == "price" then "PRICE" else if key == "stock" then "STOCK" else key
  }

  /** `v ? parseFloat(v) : null`. */
  function PriceBound(rt: Runtime, v: Option<string>): (b: Bound)
    ensures b.Nullish? <==> !Truthy(v)
    ensures b.Given? ==> b.number == OfReal(rt.parseFloat(v.value))
  {
    if Truthy(v) then Given(OfReal(rt.parseFloat(v.value))) else Nullish
  }

  /** `v ? parseInt(v) : null`. */
  function StockBound(rt: Runtime, v: Option<string>): (b: Bound)
    ensures b.Nullish? <==> !Truthy(v)
    ensures b.Given? ==> b.number == OfInt(rt.parseInt(v.value))
  {
    if Truthy(v) then Given(OfInt(rt.parseInt(v.value))) else Nullish
  }

  /** `v || null`. */
  function DateBound(v: Option<string>): (d: Option<string>)
    ensures d.Some? <==> Truthy(v)
    ensures d.Some? ==> d == v
  {
    if Truthy(v) then v else None
  }

  /** What `getProducts` makes of the query string before it calls the
      model. */
  datatype Listing = Listing(
    page: int,
    limit: int,
    all: Option<int>,
    filters: FilterSet,
    sortBy: string,
    sortOrder: string)

  /** The page, limit, `all` flag, filters and sort of a listing request. */
  function Normalize(rt: Runtime, q: Query): (l: Listing)
    ensures l.page != 0 && l.limit != 0
    ensures l.all == ParseIntOf(rt, Lookup(q, "all"))
    ensures l.filters.searchTerm == OrElse(Lookup(q, "q"), "")
    ensures l.filters.priceMin == PriceBound(rt, Lookup(q, "priceMin"))
    ensures l.filters.priceMax == PriceBound(rt, Lookup(q, "priceMax"))
    ensures l.filters.stockMin == StockBound(rt, Lookup(q, "stockMin"))
    ensures l.filters.stockMax == StockBound(rt, Lookup(q, "stockMax"))
    ensures l.filters.dateFrom == DateBound(Lookup(q, "dateFrom"))
    ensures l.filters.dateTo == DateBound(Lookup(q, "dateTo"))
    ensures l.sortOrder == OrElse(Lookup(q, "sortOrder"), "DESC")
  {
    var sortBy := FrontendSortKey(OrElse(Lookup(q, "sortBy"), "PRODUCTID"));
    var filters := FilterSet(
      OrElse(Lookup(q, "q"), ""),
      PriceBound(rt, Lookup(q, "priceMin")),
      PriceBound(rt, Lookup(q, "priceMax")),
      StockBound(rt, Lookup(q, "stockMin")),
      StockBound(rt, Lookup(q, "stockMax")),
      DateBound(Lookup(q, "dateFrom")),
      DateBound(Lookup(q, "dateTo")));
    Listing(
      IntOr(ParseIntOf(rt, Lookup(q, "page")), 1),
      IntOr(ParseIntOf(rt, Lookup(q, "limit")), 5),
      ParseIntOf(rt, Lookup(q, "all")),
      filters,
      sortBy,
      OrElse(Lookup(q, "sortOrder"), "DESC"))
  }

  /** The arguments the paginated path hands to `getPaginatedProducts`;
      all four are defined, so none of the model's defaults applies. */
  function ListingArgs(l: Listing): PageArgs {
    PageArgs(Some(l.page), Some(l.limit), Some(l.sortBy), Some(l.sortOrder))
  }

  /** `req.query.id || req.params.id`. */
  function RequestedId(q: Query, paramsId: Option<string>): (id: Option<string>)
    ensures Truthy(Lookup(q, "id")) ==> id == Lookup(q, "id")
    ensures !Truthy(Lookup(q, "id")) ==> id == paramsId
  {
    if Truthy(Lookup(q, "id")) then Lookup(q, "id") else paramsId
  }

  /** A call the controller makes into the product model. */
  datatype Issued =
    | LookupById(id: Option<int>)
    | ListAll
    | ListPage(data: DataQuery)
    | CountAll(count: CountQuery)
    | SearchByName(term: string)

  /** How a handler ends: it answers, or passes an error to `next`. */
  datatype Reply = Respond(response: Envelope) | Forward(error: JsError)

  /** A handler's reply together with the model calls it made, in order. */
  datatype Handled = Handled(reply: Reply, issued: seq<Issued>)

  /** The by-id path of `getProducts`: 404 unless the parsed id names a
      row. */
  function ById(key: Option<int>, db: Db): (h: Handled)
    ensures h.issued == [LookupById(key)] && h.reply.Respond? && WellShaped(h.reply.response)
    ensures h.reply.response.status == 404 <==> !ProductExists(db.store, key)
    ensures ProductExists(db.store, key) ==>
              h.reply.response.status == 200 && h.reply.response.data == Some(OneProduct(db.store[key.value]))
    ensures !ProductExists(db.store, key) ==>
              h.reply.response == ErrorResponse(Some(Text("Product not found")), Some(404), None)
  {
    var product := GetProductById(db.store, key);
    var reply :=
      if product.None? then Respond(ErrorResponse(Some(Text("Product not found")), Some(404), None))
      else Respond(SuccessResponse(OneProduct(product.value), Some(Text("Product retrieved successfully")), None, None));
    Handled(reply, [LookupById(key)])
  }

  /** The `all=1` path of `getProducts`: every row, no count, no
      pagination. */
  function Unpaginated(db: Db): (h: Handled)
    ensures h.issued == [ListAll]
    ensures h.reply.Respond? <==> FetchAllProducts(db).Ok?
    ensures h.reply.Respond? ==>
              && WellShaped(h.reply.response) && h.reply.response.status == 200
              && h.reply.response.pagination.None?
              && FetchAllProducts(db).Ok?
              && h.reply.response.data == Some(ProductList(FetchAllProducts(db).value))
    ensures FetchAllProducts(db).Threw? ==> h.reply == Forward(FetchAllProducts(db).error)
    ensures h.reply.Forward? ==> IsModelError(h.reply.error)
  {
    match FetchAllProducts(db)
    case Threw(e) => Handled(Forward(e), [ListAll])
    case Ok(rows) =>
      Handled(Respond(SuccessResponse(ProductList(rows), Some(Text("All products retrieved successfully")), None, None)), [ListAll])
  }

  /** The paginated path of `getProducts`: the listing query, then, if it
      succeeded, the count query over the same filters. */
  function Paginated(l: Listing, db: Db): (h: Handled)
    ensures 1 <= |h.issued| <= 2
    ensures h.issued[0] == ListPage(GetPaginatedProducts(l.filters, ListingArgs(l)))
    ensures |h.issued| == 2 <==> FetchPaginatedProducts(db, l.filters, ListingArgs(l)).Ok?
    ensures |h.issued| == 2 ==> h == Counted(l, FetchPaginatedProducts(db, l.filters, ListingArgs(l)).value, db)
    ensures FetchPaginatedProducts(db, l.filters, ListingArgs(l)).Threw? ==>
              h.reply == Forward(FetchPaginatedProducts(db, l.filters, ListingArgs(l)).error)
    ensures h.reply.Respond? ==> WellShaped(h.reply.response)
    ensures h.reply.Forward? ==> IsModelError(h.reply.error)
  {
    var data := GetPaginatedProducts(l.filters, ListingArgs(l));
    match FetchPaginatedProducts(db, l.filters, ListingArgs(l))
    case Threw(e) => Handled(Forward(e), [ListPage(data)])
    case Ok(rows) => Counted(l, rows, db)
  }

  /** The second step of the paginated path, once the listing query has
      returned `rows`: the count query, then the paginated answer. */
  function Counted(l: Listing, rows: seq<Product>, db: Db): (h: Handled)
    ensures h.issued == [ListPage(GetPaginatedProducts(l.filters, ListingArgs(l))), CountAll(GetTotalProductCount(l.filters))]
    ensures h.reply.Respond? <==> FetchTotalProductCount(db, l.filters).Ok?
    ensures h.reply.Respond? ==>
              h.reply.response == PaginatedResponse(ProductList(rows), l.page, l.limit,
                                                    FetchTotalProductCount(db, l.filters).value, Some(Flag(false)))
    ensures FetchTotalProductCount(db, l.filters).Threw? ==> h.reply == Forward(FetchTotalProductCount(db, l.filters).error)
    ensures h.reply.Respond? ==> WellShaped(h.reply.response)
    ensures h.reply.Forward? ==> IsModelError(h.reply.error)
  {
    var data := GetPaginatedProducts(l.filters, ListingArgs(l));
    var count := GetTotalProductCount(l.filters);
    match FetchTotalProductCount(db, l.filters)
    case Threw(e) =>
      Handled(Forward(e), [ListPage(data), CountAll(count)])
    case Ok(total) =>
      // The caller's seventh argument is dropped, so `message` is `false`.
      Handled(Respond(PaginatedResponse(ProductList(rows), l.page, l.limit, total, Some(Flag(false)))),
              [ListPage(data), CountAll(count)])
  }

  /** `getProducts`. A truthy id selects the by-id path; otherwise `all=1`
      selects the unpaginated path; otherwise the paginated path runs. */
  function GetProducts(rt: Runtime, q: Query, paramsId: Option<string>, db: Db): (h: Handled)
    ensures Truthy(RequestedId(q, paramsId)) ==> h == ById(rt.parseInt(RequestedId(q, paramsId).value), db)
    ensures !Truthy(RequestedId(q, paramsId)) && ParseIntOf(rt, Lookup(q, "all")) == Some(1) ==> h == Unpaginated(db)
    ensures !Truthy(RequestedId(q, paramsId)) && ParseIntOf(rt, Lookup(q, "all")) != Some(1) ==> h == Paginated(Normalize(rt, q), db)
    ensures h.reply.Respond? ==> WellShaped(h.reply.response)
    ensures h.reply.Forward? ==> IsModelError(h.reply.error)
  {
    var id := RequestedId(q, paramsId);
    if Truthy(id) then ById(rt.parseInt(id.value), db)
    else
      var l := Normalize(rt, q);
      if l.all == Some(1) then Unpaginated(db) else Paginated(l, db)
  }

  /** A query whose `id` passes `validateId` reaches the by-id path of
      `getProducts` with a positive key, whatever the route parameter. */
  lemma ValidIdSelectsById(rt: Runtime, q: Query, paramsId: Option<string>, db: Db)
    requires Validator.ValidateId(rt, Lookup(q, "id")).Next?
    ensures var key := rt.parseInt(Lookup(q, "id").value);
            && key.Some? && key.value > 0
            && GetProducts(rt, q, paramsId, db) == ById(key, db)
  {
  }

  /** `searchProducts`: a missing or blank `q` is refused; otherwise the
      trimmed term is searched and the untrimmed one echoed in `meta`. */
  function SearchProducts(q: Query, db: Db): (h: Handled)
    ensures h.reply.Respond? ==> WellShaped(h.reply.response)
    ensures h.reply.Forward? ==> IsModelError(h.reply.error)
  {
    var term := Lookup(q, "q");
    if !Truthy(term) || Trim(term.value) == "" then
      Handled(Respond(ErrorResponse(Some(Text("Search term is required")), Some(400), None)), [])
    else
      Searched(term.value, db)
  }

  /** The search proper, for a term that is not blank: one search on the
      trimmed term, whose rows are counted and the term echoed as sent. */
  function Searched(raw: string, db: Db): (h: Handled)
    ensures h.issued == [SearchByName(Trim(raw))]
    ensures h.reply.Respond? <==> FetchSearchProducts(db, Trim(raw)).Ok?
    ensures h.reply.Respond? ==>
              && WellShaped(h.reply.response) && h.reply.response.status == 200
              && h.reply.response.data == Some(ProductList(FetchSearchProducts(db, Trim(raw)).value))
              && h.reply.response.meta == Some(SearchMeta(|FetchSearchProducts(db, Trim(raw)).value|, raw))
    ensures FetchSearchProducts(db, Trim(raw)).Threw? ==> h.reply == Forward(FetchSearchProducts(db, Trim(raw)).error)
    ensures h.reply.Forward? ==> IsModelError(h.reply.error)
  {
    var term := Trim(raw);
    match FetchSearchProducts(db, term)
    case Threw(e) =>
      Handled(Forward(e), [SearchByName(term)])
    case Ok(rows) =>
      Handled(Respond(SuccessResponse(ProductList(rows), Some(Text("Search completed successfully")),
                                      Some(SearchMeta(|rows|, raw)), None)),
              [SearchByName(term)])
  }

  /** The response a reply finally produces: its own, or the error
      handler's. */
  function Serve(r: Reply, development: bool): (e: Envelope)
    ensures (r.Respond? ==> WellShaped(r.response)) ==> WellShaped(e)
    ensures r.Respond? ==> e == r.response
    ensures r.Forward? ==> e == HandleError(r.error, development) && !e.success
  {
    match r
    case Respond(envelope) => envelope
    case Forward(error) => HandleError(error, development)
  }

  // ---------------------------------------------------------------------
  // Properties of the listing endpoint.
  // ---------------------------------------------------------------------

  /** A truthy id, from the query string or else from the route, wins
      over every listing parameter: one lookup, no listing or count query,
      and 404 exactly when no row has the parsed id. */
  lemma ByIdTakesPrecedence(rt: Runtime, q: Query, paramsId: Option<string>, db: Db)
    requires Truthy(RequestedId(q, paramsId))
    ensures var key := rt.parseInt(RequestedId(q, paramsId).value);
            var h := GetProducts(rt, q, paramsId, db);
            && h.issued == [LookupById(key)]
            && h.reply.Respond? && h.reply.response.pagination.None?
            && (h.reply.response.status == 404 <==> !ProductExists(db.store, key))
            && (ProductExists(db.store, key) ==>
                  h.reply.response.status == 200 && h.reply.response.data == Some(OneProduct(db.store[key.value])))
            && (!ProductExists(db.store, key) ==>
                  h.reply.response == ErrorResponse(Some(Text("Product not found")), Some(404), None))
  {
  }

  /** `page` and `limit` fall back to 1 and 5 for a missing, unparsable or
      zero value; any other value, negative ones included, passes through
      and reaches the window unclamped. */
  lemma PageAndLimitDefaults(rt: Runtime, q: Query)
    ensures var l := Normalize(rt, q);
            var page := ParseIntOf(rt, Lookup(q, "page"));
            var limit := ParseIntOf(rt, Lookup(q, "limit"));
            && (l.page == 1 <==> page.None? || page.value == 0 || page.value == 1)
            && (page.Some? && page.value != 0 ==> l.page == page.value)
            && (l.limit == 5 <==> limit.None? || limit.value == 0 || limit.value == 5)
            && (limit.Some? && limit.value != 0 ==> l.limit == limit.value)
            && GetPaginatedProducts(l.filters, ListingArgs(l)).window == Window((l.page - 1) * l.limit, l.limit)
  {
    ListingQuery(Normalize(rt, q));
  }

  /** A negative page reaches the store as a negative offset. */
  lemma {:induction false} NegativePageGivesNegativeOffset(rt: Runtime, q: Query)
    requires ParseIntOf(rt, Lookup(q, "page")).Some? && ParseIntOf(rt, Lookup(q, "page")).value < 0
    requires ParseIntOf(rt, Lookup(q, "limit")).Some? && ParseIntOf(rt, Lookup(q, "limit")).value > 0
    ensures var l := Normalize(rt, q);
            GetPaginatedProducts(l.filters, ListingArgs(l)).window.offset < 0
  {
    var l := Normalize(rt, q);
    assert l.page < 0 && l.limit > 0;
    ListingQuery(l);
    NegativeTimesPositive(l.page - 1, l.limit);
  }

  /** The listing query of a normalised request: its window is the page
      and limit, its sort the sanitised sortBy and sortOrder. */
  lemma ListingQuery(l: Listing)
    ensures var data := GetPaginatedProducts(l.filters, ListingArgs(l));
            && data.window == Window((l.page - 1) * l.limit, l.limit)
            && data.sortColumn == SanitizeSortBy(l.sortBy)
            && data.sortDirection == SanitizeSortOrder(l.sortOrder)
  {
  }

  lemma NegativeTimesPositive(a: int, b: int)
    requires a < 0 < b
    ensures a * b < 0
  {
  }

  /** `sortBy` defaults to PRODUCTID and `sortOrder` to DESC; only `price`
      and `stock` are renamed. The renaming never changes whether the
      model keeps the column, since it only changes letter case. */
  lemma SortKeyMapping(rt: Runtime, q: Query)
    ensures var l := Normalize(rt, q);
            var raw := Lookup(q, "sortBy");
            && (!Truthy(raw) ==> l.sortBy == "PRODUCTID")
            && (Truthy(raw) && raw.value == "price" ==> l.sortBy == "PRICE")
            && (Truthy(raw) && raw.value == "stock" ==> l.sortBy == "STOCK")
            && (Truthy(raw) && raw.value != "price" && raw.value != "stock" ==> l.sortBy == raw.value)
            && (ToUpperCase(l.sortBy) in ValidSortColumns <==> ToUpperCase(OrElse(raw, "PRODUCTID")) in ValidSortColumns)
            && (!Truthy(Lookup(q, "sortOrder")) ==> l.sortOrder == "DESC")
  {
  }

  /** An unknown `sortBy` such as `name` and a `sortOrder` such as `up`
      reach the store as `ORDER BY PRODUCTID DESC`. */
  lemma UnknownSortFallsBack(rt: Runtime, q: Query)
    requires Lookup(q, "sortBy") == Some("name") && Lookup(q, "sortOrder") == Some("up")
    ensures var l := Normalize(rt, q);
            var data := GetPaginatedProducts(l.filters, ListingArgs(l));
            data.sortColumn == "PRODUCTID" && data.sortDirection == "DESC"
  {
    var l := Normalize(rt, q);
    assert l.sortBy == "name" && l.sortOrder == "up";
    ListingQuery(l);
    UnknownSortWords();
  }

  lemma UnknownSortWords()
    ensures SanitizeSortBy("name") == "PRODUCTID" && SanitizeSortOrder("up") == "DESC"
  {
    assert ToUpperCase("name") == "NAME";
    assert ToUpperCase("up") == "UP";
  }

  /** A range or date parameter that is missing or empty becomes null and
      adds no predicate; a non-empty one always adds its predicate, even
      when it does not parse. */
  lemma EmptyRangeIsNull(rt: Runtime, q: Query)
    ensures var f := Normalize(rt, q).filters;
            && (Emits(f, PriceMinSlot) <==> Truthy(Lookup(q, "priceMin")))
            && (Emits(f, PriceMaxSlot) <==> Truthy(Lookup(q, "priceMax")))
            && (Emits(f, StockMinSlot) <==> Truthy(Lookup(q, "stockMin")))
            && (Emits(f, StockMaxSlot) <==> Truthy(Lookup(q, "stockMax")))
            && (Emits(f, DateFromSlot) <==> Truthy(Lookup(q, "dateFrom")))
            && (Emits(f, DateToSlot) <==> Truthy(Lookup(q, "dateTo")))
            && (Emits(f, SearchSlot) <==> Truthy(Lookup(q, "q")))
  {
  }

  /** The filter parameters of `q` and `r` are non-empty in the same
      places. */
  predicate SameFiltersGiven(q: Query, r: Query) {
    && (Truthy(Lookup(q, "q")) <==> Truthy(Lookup(r, "q")))
    && (Truthy(Lookup(q, "priceMin")) <==> Truthy(Lookup(r, "priceMin")))
    && (Truthy(Lookup(q, "priceMax")) <==> Truthy(Lookup(r, "priceMax")))
    && (Truthy(Lookup(q, "stockMin")) <==> Truthy(Lookup(r, "stockMin")))
    && (Truthy(Lookup(q, "stockMax")) <==> Truthy(Lookup(r, "stockMax")))
    && (Truthy(Lookup(q, "dateFrom")) <==> Truthy(Lookup(r, "dateFrom")))
    && (Truthy(Lookup(q, "dateTo")) <==> Truthy(Lookup(r, "dateTo")))
  }

  /** Two listing requests whose filter parameters are non-empty in the
      same places and which ask for the same sort send the same SQL text;
      the parameter values reach the store only as bindings. */
  lemma QueryValuesNeverInText(rt: Runtime, q: Query, r: Query)
    requires SameFiltersGiven(q, r)
    requires Lookup(q, "sortBy") == Lookup(r, "sortBy") && Lookup(q, "sortOrder") == Lookup(r, "sortOrder")
    ensures var l := Normalize(rt, q);
            var m := Normalize(rt, r);
            DataStatement(GetPaginatedProducts(l.filters, ListingArgs(l))).text
            == DataStatement(GetPaginatedProducts(m.filters, ListingArgs(m))).text
  {
    var l := Normalize(rt, q);
    var m := Normalize(rt, r);
    SameFiltersSameSlots(rt, q, r);
    NormalizedSort(rt, q);
    NormalizedSort(rt, r);
    SameShapeSameText(l, m);
  }

  /** Filter parameters given in the same places emit the same slots. */
  lemma SameFiltersSameSlots(rt: Runtime, q: Query, r: Query)
    requires SameFiltersGiven(q, r)
    ensures forall s :: Emits(Normalize(rt, q).filters, s) <==> Emits(Normalize(rt, r).filters, s)
  {
    var f := Normalize(rt, q).filters;
    var g := Normalize(rt, r).filters;
    EmptyRangeIsNull(rt, q);
    EmptyRangeIsNull(rt, r);
    SlotwiseAgreement(f, g);
  }

  /** Two filter sets emit the same slots when they agree slot by slot. */
  lemma SlotwiseAgreement(f: FilterSet, g: FilterSet)
    requires Emits(f, SearchSlot) == Emits(g, SearchSlot)
    requires Emits(f, PriceMinSlot) == Emits(g, PriceMinSlot) && Emits(f, PriceMaxSlot) == Emits(g, PriceMaxSlot)
    requires Emits(f, StockMinSlot) == Emits(g, StockMinSlot) && Emits(f, StockMaxSlot) == Emits(g, StockMaxSlot)
    requires Emits(f, DateFromSlot) == Emits(g, DateFromSlot) && Emits(f, DateToSlot) == Emits(g, DateToSlot)
    ensures forall s :: Emits(f, s) <==> Emits(g, s)
  {
    forall s: Slot
      ensures Emits(f, s) <==> Emits(g, s)
    {
      match s
      case SearchSlot =>
      case PriceMinSlot =>
      case PriceMaxSlot =>
      case StockMinSlot =>
      case StockMaxSlot =>
      case DateFromSlot =>
      case DateToSlot =>
    }
  }

  /** The sort a listing request asks for, after the frontend renaming. */
  lemma NormalizedSort(rt: Runtime, q: Query)
    ensures Normalize(rt, q).sortBy == FrontendSortKey(OrElse(Lookup(q, "sortBy"), "PRODUCTID"))
    ensures Normalize(rt, q).sortOrder == OrElse(Lookup(q, "sortOrder"), "DESC")
  {
  }

  /** Two normalised listings with filters in the same places and the same
      sort send the same listing text. */
  lemma SameShapeSameText(l: Listing, m: Listing)
    requires forall s :: Emits(l.filters, s) <==> Emits(m.filters, s)
    requires l.sortBy == m.sortBy && l.sortOrder == m.sortOrder
    ensures DataStatement(GetPaginatedProducts(l.filters, ListingArgs(l))).text
            == DataStatement(GetPaginatedProducts(m.filters, ListingArgs(m))).text
  {
    FilterValuesNeverInText(l.filters, m.filters, ListingArgs(l), ListingArgs(m));
  }

  /** Without a truthy id, `all=1` reads every row through the fixed
      statement and answers without counting or paginating. */
  lemma AllSkipsCountAndPagination(rt: Runtime, q: Query, paramsId: Option<string>, db: Db)
    requires !Truthy(RequestedId(q, paramsId)) && ParseIntOf(rt, Lookup(q, "all")) == Some(1)
    ensures var h := GetProducts(rt, q, paramsId, db);
            && h.issued == [ListAll]
            && (h.reply.Respond? <==> FetchAllProducts(db).Ok?)
            && (h.reply.Respond? ==>
                  && h.reply.response.pagination.None?
                  && h.reply.response.status == 200
                  && h.reply.response.data == Some(ProductList(FetchAllProducts(db).value)))
  {
  }

  /** On the paginated path the listing query and the count query are
      built from the same filters: the count statement has the listing's
      WHERE text and binds the same parameters, less the window. The answer
      echoes the page and limit and counts the rows the count query
      reported. */
  lemma {:induction false} DataAndCountShareFilters(rt: Runtime, q: Query, paramsId: Option<string>, db: Db)
    requires !Truthy(RequestedId(q, paramsId)) && ParseIntOf(rt, Lookup(q, "all")) != Some(1)
    requires FetchPaginatedProducts(db, Normalize(rt, q).filters, ListingArgs(Normalize(rt, q))).Ok?
    ensures var h := GetProducts(rt, q, paramsId, db);
            && |h.issued| == 2 && h.issued[0].ListPage? && h.issued[1].CountAll?
            && h.issued[1].count.predicates == h.issued[0].data.predicates
            && CountStatement(h.issued[1].count).text == "SELECT COUNT(*) as total " + WhereText(h.issued[0].data.predicates)
            && DataStatement(h.issued[0].data).bindings
               == CountStatement(h.issued[1].count).bindings
                  + [IntBinding("offset", h.issued[0].data.window.offset), IntBinding("limit", h.issued[0].data.window.limit)]
  {
    var l := Normalize(rt, q);
    CountMatchesDataStatement(l.filters, ListingArgs(l));
  }

  /** The paginated answer's `message` is `false`, not a string, and its
      page count is always finite because the limit is never 0. */
  lemma PaginatedMessageIsFalse(rt: Runtime, q: Query, paramsId: Option<string>, db: Db)
    requires !Truthy(RequestedId(q, paramsId)) && ParseIntOf(rt, Lookup(q, "all")) != Some(1)
    requires GetProducts(rt, q, paramsId, db).reply.Respond?
    ensures var r := GetProducts(rt, q, paramsId, db).reply.response;
            && r.message == Flag(false)
            && r.status == 200
            && r.pagination.Some?
            && r.pagination.value.currentPage == Normalize(rt, q).page
            && r.pagination.value.itemsPerPage == Normalize(rt, q).limit
            && r.pagination.value.totalPages.Pages?
  {
  }

  /** An error raised while listing never reaches the client as a query
      error: the model has dropped its code, so the error handler answers
      503 for a connection failure and 500 "Internal server error" for
      anything else. */
  lemma ListingNeverAnswersQueryError(rt: Runtime, q: Query, paramsId: Option<string>, db: Db, development: bool)
    ensures var h := GetProducts(rt, q, paramsId, db);
            h.reply.Forward? ==>
              var r := Serve(h.reply, development);
              r.message != Text(QueryMessage) && (r.status == 503 || r.message == Text(InternalMessage))
  {
    var h := GetProducts(rt, q, paramsId, db);
    if h.reply.Forward? {
      ModelErrorsNeverQueryErrors(h.reply.error, development);
    }
  }

  /** A paginated request whose listing query fails because the store
      refuses the connection is answered 503: the failure is forwarded,
      not turned into a page. */
  lemma ListingConnectionFailureIs503(rt: Runtime, q: Query, paramsId: Option<string>, db: Db, development: bool)
    requires !Truthy(RequestedId(q, paramsId)) && ParseIntOf(rt, Lookup(q, "all")) != Some(1)
    requires var l := Normalize(rt, q);
             var o := db.fetch(DataStatement(GetPaginatedProducts(l.filters, ListingArgs(l))));
             o.Threw? && MentionsConnection(o.error)
    ensures Serve(GetProducts(rt, q, paramsId, db).reply, development).status == 503
  {
    var l := Normalize(rt, q);
    StoreConnectionFailureIs503(db, l.filters, ListingArgs(l), development);
  }

  // ---------------------------------------------------------------------
  // Properties of the search endpoint.
  // ---------------------------------------------------------------------

  /** `searchProducts` refuses exactly a missing `q` and one made only of
      white space, with 400 and no call into the model; otherwise it
      searches once, on the trimmed term, and echoes `q` as sent. */
  lemma {:induction false} SearchRejectsBlank(q: Query, db: Db)
    ensures var h := SearchProducts(q, db);
            var term := Lookup(q, "q");
            && (h.issued == [] <==> term.None? || forall k :: 0 <= k < |term.value| ==> IsWhiteSpace(term.value[k]))
            && (h.issued == [] ==> h.reply == Respond(ErrorResponse(Some(Text("Search term is required")), Some(400), None)))
            && (h.issued != [] ==>
                  && h == Searched(term.value, db)
                  && h.issued == [SearchByName(Trim(term.value))]
                  && (h.reply.Respond? ==>
                        h.reply.response.meta == Some(SearchMeta(|FetchSearchProducts(db, Trim(term.value)).value|, term.value))))
  {
    var term := Lookup(q, "q");
    if term.Some? {
      TrimEmptyIffAllWhiteSpace(term.value);
    }
  }
}

=== FILE: product_model.dfy ===
/** The product model: the filtered, sorted, paginated listing query and its
    matching count query, the fixed-shape listing and search statements, and
    the by-id lookup and delete over an abstract store. */
module ProductModel {
  import opened Wrappers
  import opened JsValue
  import opened JsString
  import opened Sql
  import opened ProductRow

  /** A numeric range bound. `Nullish` is `null` or `undefined`, the two
      values for which the source's `!= null` test fails; every other value,
      0 and NaN included, is `Given`. */
  datatype Bound = Nullish | Given(number: Number)

  /** The filter object the controller hands to both the data and the count
      query. A missing or `null` search term behaves exactly like the empty
      one (all are falsy) and is represented by `""`; a date bound is `None`
      for `null`/`undefined` and otherwise holds the raw text. */
  datatype FilterSet = FilterSet(
    searchTerm: string,
    priceMin: Bound,
    priceMax: Bound,
    stockMin: Bound,
    stockMax: Bound,
    dateFrom: Option<string>,
    dateTo: Option<string>)

  const NoFilters: FilterSet := FilterSet("", Nullish, Nullish, Nullish, Nullish, None, None)

  /** The arguments the listing query takes beyond the filters; `None` is an
      argument left `undefined`, which takes the destructuring default. */
  datatype PageArgs = PageArgs(page: Option<int>, limit: Option<int>, sortBy: Option<string>, sortOrder: Option<string>)

  // ---------------------------------------------------------------------
  // Reference description of the WHERE clause: seven optional slots in a
  // fixed order, each emitting one predicate when its filter is present.
  // ---------------------------------------------------------------------

  datatype Slot = SearchSlot | PriceMinSlot | PriceMaxSlot | StockMinSlot | StockMaxSlot | DateFromSlot | DateToSlot

  const SlotOrder: seq<Slot> := [SearchSlot, PriceMinSlot, PriceMaxSlot, StockMinSlot, StockMaxSlot, DateFromSlot, DateToSlot]

  function SlotRank(s: Slot): nat {
    match s
    case SearchSlot => 0
    case PriceMinSlot => 1
    case PriceMaxSlot => 2
    case StockMinSlot => 3
    case StockMaxSlot => 4
    case DateFromSlot => 5
    case DateToSlot => 6
  }

  function ParamName(s: Slot): string {
    match s
    case SearchSlot => "searchTerm"
    case PriceMinSlot => "priceMin"
    case PriceMaxSlot => "priceMax"
    case StockMinSlot => "stockMin"
    case StockMaxSlot => "stockMax"
    case DateFromSlot => "dateFrom"
    case DateToSlot => "dateTo"
  }

  /** The parameter names in the fixed predicate order: `ParamName` over
      `SlotOrder`, kept as a literal so that the rank of a predicate can be
      read off its bare `param` string; `ParamRankOfSlot` proves that the
      two agree. */
  const ParamNames: seq<string> := ["searchTerm", "priceMin", "priceMax", "stockMin", "stockMax", "dateFrom", "dateTo"]

  /** Position of `name` in `names`; `|names|` when it is absent. */
  function IndexOf(name: string, names: seq<string>): nat {
    if names == [] then 0
    else if names[0] == name then 0
    else 1 + IndexOf(name, names[1..])
  }

  /** Position of a parameter name in the fixed predicate order. */
  function ParamRank(name: string): nat {
    IndexOf(name, ParamNames)
  }

  predicate DateTruthy(d: Option<string>) {
    d.Some? && d.value != ""
  }

  /** Whether a slot contributes a predicate: the search term and the dates
      when truthy, the numeric bounds when not null/undefined. */
  predicate Emits(f: FilterSet, s: Slot) {
    match s
    case SearchSlot => f.searchTerm != ""
    case PriceMinSlot => f.priceMin.Given?
    case PriceMaxSlot => f.priceMax.Given?
    case StockMinSlot => f.stockMin.Given?
    case StockMaxSlot => f.stockMax.Given?
    case DateFromSlot => DateTruthy(f.dateFrom)
    case DateToSlot => DateTruthy(f.dateTo)
  }

  /** The predicate an emitting slot contributes. The search term is bound
      wrapped in `%` wildcards; dates are bound as DateTime built from their
      text. */
  function Describe(f: FilterSet, s: Slot): (p: Predicate)
    requires Emits(f, s)
    ensures p.param == ParamName(s)
  {
    match s
    case SearchSlot => Predicate(ProductName, Like, "searchTerm", NVarCharParam("%" + f.searchTerm + "%"))
    case PriceMinSlot => Predicate(Price, AtLeast, "priceMin", DecimalParam(f.priceMin.number))
    case PriceMaxSlot => Predicate(Price, AtMost, "priceMax", DecimalParam(f.priceMax.number))
    case StockMinSlot => Predicate(Stock, AtLeast, "stockMin", IntParam(f.stockMin.number))
    case StockMaxSlot => Predicate(Stock, AtMost, "stockMax", IntParam(f.stockMax.number))
    case DateFromSlot => Predicate(CreatedAt, AtLeast, "dateFrom", DateTimeParam(f.dateFrom.value))
    case DateToSlot => Predicate(CreatedAt, AtMost, "dateTo", DateTimeParam(f.dateTo.value))
  }

  /** The predicate a slot contributes: none, or exactly its description. */
  function Contribution(f: FilterSet, s: Slot): seq<Predicate> {
    if Emits(f, s) then [Describe(f, s)] else []
  }

  /** The predicates of the emitting slots among `slots`, in slot order. */
  function Selected(f: FilterSet, slots: seq<Slot>): seq<Predicate> {
    if slots == [] then [] else Contribution(f, slots[0]) + Selected(f, slots[1..])
  }

  lemma SelectedCons(f: FilterSet, s: Slot, rest: seq<Slot>)
    ensures Selected(f, [s] + rest) == Contribution(f, s) + Selected(f, rest)
  {
    assert ([s] + rest)[1..] == rest;
  }

  // ---------------------------------------------------------------------
  // The two predicate builders, written out separately as in the source.
  // ---------------------------------------------------------------------

  /** The WHERE-clause predicates `getPaginatedProducts` appends after
      `WHERE 1=1`. */
  function PaginatedPredicates(f: FilterSet): (r: seq<Predicate>)
    ensures r == Selected(f, SlotOrder)
  {
    var search := if f.searchTerm != "" then [Predicate(ProductName, Like, "searchTerm", NVarCharParam("%" + f.searchTerm + "%"))] else [];
    var priceMin := if f.priceMin != Nullish then [Predicate(Price, AtLeast, "priceMin", DecimalParam(f.priceMin.number))] else [];
    var priceMax := if f.priceMax != Nullish then [Predicate(Price, AtMost, "priceMax", DecimalParam(f.priceMax.number))] else [];
    var stockMin := if f.stockMin != Nullish then [Predicate(Stock, AtLeast, "stockMin", IntParam(f.stockMin.number))] else [];
    var stockMax := if f.stockMax != Nullish then [Predicate(Stock, AtMost, "stockMax", IntParam(f.stockMax.number))] else [];
    var dateFrom := if DateTruthy(f.dateFrom) then [Predicate(CreatedAt, AtLeast, "dateFrom", DateTimeParam(f.dateFrom.value))] else [];
    var dateTo := if DateTruthy(f.dateTo) then [Predicate(CreatedAt, AtMost, "dateTo", DateTimeParam(f.dateTo.value))] else [];
    SlotContributions(f);
    assert search == Contribution(f, SearchSlot) && priceMin == Contribution(f, PriceMinSlot)
        && priceMax == Contribution(f, PriceMaxSlot) && stockMin == Contribution(f, StockMinSlot)
        && stockMax == Contribution(f, StockMaxSlot) && dateFrom == Contribution(f, DateFromSlot)
        && dateTo == Contribution(f, DateToSlot);
    SevenContributions(f, search, priceMin, priceMax, stockMin, stockMax, dateFrom, dateTo);
    search + priceMin + priceMax + stockMin + stockMax + dateFrom + dateTo
  }

  /** The WHERE-clause predicates `getTotalProductCount` appends after
      `WHERE 1=1`. */
  function CountPredicates(f: FilterSet): (r: seq<Predicate>)
    ensures r == Selected(f, SlotOrder)
  {
    var search := if f.searchTerm != "" then [Predicate(ProductName, Like, "searchTerm", NVarCharParam("%" + f.searchTerm + "%"))] else [];
    var priceMin := if f.priceMin != Nullish then [Predicate(Price, AtLeast, "priceMin", DecimalParam(f.priceMin.number))] else [];
    var priceMax := if f.priceMax != Nullish then [Predicate(Price, AtMost, "priceMax", DecimalParam(f.priceMax.number))] else [];
    var stockMin := if f.stockMin != Nullish then [Predicate(Stock, AtLeast, "stockMin", IntParam(f.stockMin.number))] else [];
    var stockMax := if f.stockMax != Nullish then [Predicate(Stock, AtMost, "stockMax", IntParam(f.stockMax.number))] else [];
    var dateFrom := if DateTruthy(f.dateFrom) then [Predicate(CreatedAt, AtLeast, "dateFrom", DateTimeParam(f.dateFrom.value))] else [];
    var dateTo := if DateTruthy(f.dateTo) then [Predicate(CreatedAt, AtMost, "dateTo", DateTimeParam(f.dateTo.value))] else [];
    SlotContributions(f);
    assert search == Contribution(f, SearchSlot) && priceMin == Contribution(f, PriceMinSlot)
        && priceMax == Contribution(f, PriceMaxSlot) && stockMin == Contribution(f, StockMinSlot)
        && stockMax == Contribution(f, StockMaxSlot) && dateFrom == Contribution(f, DateFromSlot)
        && dateTo == Contribution(f, DateToSlot);
    SevenContributions(f, search, priceMin, priceMax, stockMin, stockMax, dateFrom, dateTo);
    search + priceMin + priceMax + stockMin + stockMax + dateFrom + dateTo
  }

  /** Seven lists, one per slot in order, concatenate to `Selected`. */
  lemma SevenContributions(f: FilterSet, a: seq<Predicate>, b: seq<Predicate>, c: seq<Predicate>, d: seq<Predicate>,
                           e: seq<Predicate>, g: seq<Predicate>, h: seq<Predicate>)
    requires a == Contribution(f, SearchSlot) && b == Contribution(f, PriceMinSlot)
    requires c == Contribution(f, PriceMaxSlot) && d == Contribution(f, StockMinSlot)
    requires e == Contribution(f, StockMaxSlot) && g == Contribution(f, DateFromSlot)
    requires h == Contribution(f, DateToSlot)
    ensures a + b + c + d + e + g + h == Selected(f, SlotOrder)
  {
    SelectedOverSlotOrder(f);
    ConcatSevenAssoc(a, b, c, d, e, g, h);
  }

  /** Each slot's contribution written out as the builders test and bind it. */
  lemma SlotContributions(f: FilterSet)
    ensures Contribution(f, SearchSlot) == if f.searchTerm != "" then [Predicate(ProductName, Like, "searchTerm", NVarCharParam("%" + f.searchTerm + "%"))] else []
    ensures Contribution(f, PriceMinSlot) == if f.priceMin != Nullish then [Predicate(Price, AtLeast, "priceMin", DecimalParam(f.priceMin.number))] else []
    ensures Contribution(f, PriceMaxSlot) == if f.priceMax != Nullish then [Predicate(Price, AtMost, "priceMax", DecimalParam(f.priceMax.number))] else []
    ensures Contribution(f, StockMinSlot) == if f.stockMin != Nullish then [Predicate(Stock, AtLeast, "stockMin", IntParam(f.stockMin.number))] else []
    ensures Contribution(f, StockMaxSlot) == if f.stockMax != Nullish then [Predicate(Stock, AtMost, "stockMax", IntParam(f.stockMax.number))] else []
    ensures Contribution(f, DateFromSlot) == if DateTruthy(f.dateFrom) then [Predicate(CreatedAt, AtLeast, "dateFrom", DateTimeParam(f.dateFrom.value))] else []
    ensures Contribution(f, DateToSlot) == if DateTruthy(f.dateTo) then [Predicate(CreatedAt, AtMost, "dateTo", DateTimeParam(f.dateTo.value))] else []
  {
  }

  lemma ConcatSevenAssoc<T>(a: seq<T>, b: seq<T>, c: seq<T>, d: seq<T>, e: seq<T>, g: seq<T>, h: seq<T>)
    ensures a + b + c + d + e + g + h == a + (b + (c + (d + (e + (g + h)))))
  {
  }

  /** Unfolds `Selected` over the seven slots. */
  lemma SelectedOverSlotOrder(f: FilterSet)
    ensures Selected(f, SlotOrder)
         == Contribution(f, SearchSlot) + (Contribution(f, PriceMinSlot) + (Contribution(f, PriceMaxSlot)
          + (Contribution(f, StockMinSlot) + (Contribution(f, StockMaxSlot)
          + (Contribution(f, DateFromSlot) + Contribution(f, DateToSlot))))))
  {
    var c0, c1, c2, c3 := Contribution(f, SearchSlot), Contribution(f, PriceMinSlot), Contribution(f, PriceMaxSlot), Contribution(f, StockMinSlot);
    var c4, c5, c6 := Contribution(f, StockMaxSlot), Contribution(f, DateFromSlot), Contribution(f, DateToSlot);
    var s6 := [DateToSlot];
    var s5 := [DateFromSlot] + s6;
    var s4 := [StockMaxSlot] + s5;
    var s3 := [StockMinSlot] + s4;
    var s2 := [PriceMaxSlot] + s3;
    var s1 := [PriceMinSlot] + s2;
    var s0 := [SearchSlot] + s1;
    assert s0 == SlotOrder;
    assert Selected(f, s6) == c6 by { SelectedCons(f, DateToSlot, []); assert [DateToSlot] + [] == s6; }
    assert Selected(f, s5) == c5 + c6 by { SelectedCons(f, DateFromSlot, s6); }
    assert Selected(f, s4) == c4 + (c5 + c6) by { SelectedCons(f, StockMaxSlot, s5); }
    assert Selected(f, s3) == c3 + (c4 + (c5 + c6)) by { SelectedCons(f, StockMinSlot, s4); }
    assert Selected(f, s2) == c2 + (c3 + (c4 + (c5 + c6))) by { SelectedCons(f, PriceMaxSlot, s3); }
    assert Selected(f, s1) == c1 + (c2 + (c3 + (c4 + (c5 + c6)))) by { SelectedCons(f, PriceMinSlot, s2); }
    SelectedCons(f, SearchSlot, s1);
  }

  // ---------------------------------------------------------------------
  // What the predicate list says, proved of the slot reference.
  // ---------------------------------------------------------------------

  lemma ParamNameInjective(s: Slot, t: Slot)
    ensures ParamName(s) == ParamName(t) <==> s == t
  {
  }

  lemma ParamRankOfSlot(s: Slot)
    ensures ParamRank(ParamName(s)) == SlotRank(s)
  {
  }

  /** Each predicate `Selected` produces describes an emitting slot drawn
      from `slots`. */
  lemma {:induction false} SelectedSlotAt(f: FilterSet, slots: seq<Slot>, i: nat) returns (s: Slot)
    requires i < |Selected(f, slots)|
    ensures s in slots && Emits(f, s) && Selected(f, slots)[i] == Describe(f, s)
    decreases slots
  {
    var head := Contribution(f, slots[0]);
    if i < |head| {
      s := slots[0];
    } else {
      s := SelectedSlotAt(f, slots[1..], i - |head|);
    }
  }

  /** `Selected` holds a predicate for parameter `ParamName(s)` exactly when
      `s` is one of `slots` and emits. */
  lemma SelectedHasParam(f: FilterSet, slots: seq<Slot>, s: Slot)
    ensures (exists i :: 0 <= i < |Selected(f, slots)| && Selected(f, slots)[i].param == ParamName(s))
            <==> s in slots && Emits(f, s)
  {
    if exists i :: 0 <= i < |Selected(f, slots)| && Selected(f, slots)[i].param == ParamName(s) {
      var i :| 0 <= i < |Selected(f, slots)| && Selected(f, slots)[i].param == ParamName(s);
      var t := SelectedSlotAt(f, slots, i);
      ParamNameInjective(s, t);
    }
    if s in slots && Emits(f, s) {
      var i := SlotPredicateIndex(f, slots, s);
    }
  }

  /** Where an emitting slot of `slots` puts its predicate in `Selected`. */
  lemma {:induction false} SlotPredicateIndex(f: FilterSet, slots: seq<Slot>, s: Slot) returns (i: nat)
    requires s in slots && Emits(f, s)
    ensures i < |Selected(f, slots)| && Selected(f, slots)[i] == Describe(f, s)
    decreases slots
  {
    var head := Contribution(f, slots[0]);
    var tail := Selected(f, slots[1..]);
    assert Selected(f, slots) == head + tail;
    if slots[0] == s {
      i := 0;
    } else {
      assert s in slots[1..];
      var k := SlotPredicateIndex(f, slots[1..], s);
      i := |head| + k;
      assert Selected(f, slots)[i] == tail[k];
    }
  }

  /** Parameter ranks strictly increase along `ps`. */
  predicate RankOrdered(ps: seq<Predicate>) {
    forall i, j :: 0 <= i < j < |ps| ==> ParamRank(ps[i].param) < ParamRank(ps[j].param)
  }

  /** Slots listed in increasing rank yield predicates in increasing rank. */
  lemma {:induction false} SelectedOrdered(f: FilterSet, slots: seq<Slot>)
    requires forall i, j :: 0 <= i < j < |slots| ==> SlotRank(slots[i]) < SlotRank(slots[j])
    ensures RankOrdered(Selected(f, slots))
    decreases slots
  {
    if slots != [] {
      SelectedOrdered(f, slots[1..]);
      var head := Contribution(f, slots[0]);
      var tail := Selected(f, slots[1..]);
      if head != [] {
        forall j | 0 <= j < |tail|
          ensures ParamRank(head[0].param) < ParamRank(tail[j].param)
        {
          HeadRanksFirst(f, slots, j);
        }
      }
      ConsOrdered(head, tail);
    }
  }

  /** At most one predicate ranked below a rank-ordered tail keeps the
      order. */
  lemma ConsOrdered(head: seq<Predicate>, tail: seq<Predicate>)
    requires |head| <= 1 && RankOrdered(tail)
    requires head != [] ==> forall j :: 0 <= j < |tail| ==> ParamRank(head[0].param) < ParamRank(tail[j].param)
    ensures RankOrdered(head + tail)
  {
    var r := head + tail;
    forall i, j | 0 <= i < j < |r|
      ensures ParamRank(r[i].param) < ParamRank(r[j].param)
    {
      if i < |head| {
        assert r[i] == head[0] && r[j] == tail[j - |head|];
      } else {
        assert r[i] == tail[i - |head|] && r[j] == tail[j - |head|];
      }
    }
  }

  /** The predicate of the first slot ranks below every predicate of the
      later slots. */
  lemma HeadRanksFirst(f: FilterSet, slots: seq<Slot>, j: nat)
    requires forall i, j :: 0 <= i < j < |slots| ==> SlotRank(slots[i]) < SlotRank(slots[j])
    requires |slots| > 0 && Emits(f, slots[0]) && j < |Selected(f, slots[1..])|
    ensures ParamRank(Describe(f, slots[0]).param) < ParamRank(Selected(f, slots[1..])[j].param)
  {
    var t := SelectedSlotAt(f, slots[1..], j);
    ParamRankOfSlot(slots[0]);
    ParamRankOfSlot(t);
    var k :| 0 <= k < |slots[1..]| && slots[1..][k] == t;
    assert slots[k + 1] == t;
  }

  /** The data query and the count query carry the same predicates and so
      bind the same parameters. */
  lemma PredicateParity(f: FilterSet)
    ensures CountPredicates(f) == PaginatedPredicates(f)
    ensures BindingsOf(CountPredicates(f)) == BindingsOf(PaginatedPredicates(f))
  {
  }

  /** A filter yields a predicate exactly when it is present: a numeric
      bound when not null/undefined (so 0 and NaN still filter), the search
      term and the dates when truthy. That predicate binds the filter's own
      value. */
  lemma PredicateIffFilterPresent(f: FilterSet, s: Slot)
    ensures (exists i :: 0 <= i < |PaginatedPredicates(f)| && PaginatedPredicates(f)[i].param == ParamName(s))
            <==> Emits(f, s)
    ensures forall i :: 0 <= i < |PaginatedPredicates(f)| && PaginatedPredicates(f)[i].param == ParamName(s)
              ==> Emits(f, s) && PaginatedPredicates(f)[i] == Describe(f, s)
  {
    SelectedHasParam(f, SlotOrder, s);
    var r := PaginatedPredicates(f);
    forall i | 0 <= i < |r| && r[i].param == ParamName(s)
      ensures Emits(f, s) && r[i] == Describe(f, s)
    {
      var t := SelectedSlotAt(f, SlotOrder, i);
      ParamNameInjective(s, t);
    }
  }

  /** The search term is matched through the bound pattern `%term%`, and
      only when it is non-empty. */
  lemma SearchBoundAsPattern(f: FilterSet)
    ensures f.searchTerm != "" <==>
              Predicate(ProductName, Like, "searchTerm", NVarCharParam("%" + f.searchTerm + "%")) in PaginatedPredicates(f)
    ensures f.searchTerm == "" ==> forall p :: p in PaginatedPredicates(f) ==> p.column != ProductName
  {
    PredicateIffFilterPresent(f, SearchSlot);
    var r := PaginatedPredicates(f);
    forall i | 0 <= i < |r|
      ensures r[i].column == ProductName ==> f.searchTerm != ""
    {
      var t := SelectedSlotAt(f, SlotOrder, i);
    }
  }

  /** Predicates come in the fixed order search, priceMin, priceMax,
      stockMin, stockMax, dateFrom, dateTo. */
  lemma PredicatesInFixedOrder(f: FilterSet)
    ensures forall i, j :: 0 <= i < j < |PaginatedPredicates(f)| ==>
              ParamRank(PaginatedPredicates(f)[i].param) < ParamRank(PaginatedPredicates(f)[j].param)
  {
    SelectedOrdered(f, SlotOrder);
  }

  /** Without filters the WHERE clause is just `1=1`: the predicate list is
      empty exactly when no filter is present. */
  lemma NoFiltersNoPredicates(f: FilterSet)
    ensures PaginatedPredicates(f) == [] <==> forall s :: !Emits(f, s)
    ensures PaginatedPredicates(NoFilters) == []
  {
    SelectedOverSlotOrder(f);
    SelectedOverSlotOrder(NoFilters);
  }

  // ---------------------------------------------------------------------
  // Sort sanitisation and the offset window.
  // ---------------------------------------------------------------------

  const ValidSortColumns: seq<string> := ["PRODUCTID", "PRODUCTNAME", "PRICE", "STOCK", "CREATED_AT"]

  predicate IsUpperToken(w: string) {
    forall k :: 0 <= k < |w| ==> ('A' <= w[k] <= 'Z') || w[k] == '_'
  }

  lemma UpperTokenUnchanged(w: string)
    requires IsUpperToken(w)
    ensures ToUpperCase(w) == w
  {
  }

  lemma SortWordsAreUpperTokens()
    ensures forall w :: w in ValidSortColumns ==> IsUpperToken(w)
    ensures IsUpperToken("ASC") && IsUpperToken("DESC")
  {
    assert IsUpperToken("PRODUCTID");
    assert IsUpperToken("PRODUCTNAME");
    assert IsUpperToken("PRICE");
    assert IsUpperToken("STOCK");
    assert IsUpperToken("CREATED_AT");
  }

  /** `sortBy`, kept as written when its upper-case form is a whitelisted
      column, `PRODUCTID` otherwise. */
  function SanitizeSortBy(sortBy: string): (r: string)
    ensures ToUpperCase(r) in ValidSortColumns
    ensures ToUpperCase(sortBy) in ValidSortColumns ==> r == sortBy
    ensures ToUpperCase(sortBy) !in ValidSortColumns ==> r == "PRODUCTID"
  {
    if ToUpperCase(sortBy) in ValidSortColumns then sortBy
    else
      SortWordsAreUpperTokens();
      UpperTokenUnchanged("PRODUCTID");
      "PRODUCTID"
  }

  predicate IsSortDirection(w: string) {
    ToUpperCase(w) == "ASC" || ToUpperCase(w) == "DESC"
  }

  /** `sortOrder`, kept as written when it is ASC or DESC in any case,
      `DESC` otherwise. */
  function SanitizeSortOrder(sortOrder: string): (r: string)
    ensures IsSortDirection(r)
    ensures IsSortDirection(sortOrder) ==> r == sortOrder
    ensures !IsSortDirection(sortOrder) ==> r == "DESC"
  {
    if IsSortDirection(sortOrder) then sortOrder
    else
      SortWordsAreUpperTokens();
      UpperTokenUnchanged("DESC");
      "DESC"
  }

  /** The defaults PRODUCTID and DESC pass their own sanitisation. */
  lemma DefaultSortKept()
    ensures SanitizeSortBy("PRODUCTID") == "PRODUCTID" && SanitizeSortOrder("DESC") == "DESC"
  {
    SortWordsAreUpperTokens();
    UpperTokenUnchanged("PRODUCTID");
    UpperTokenUnchanged("DESC");
  }

  /** A token whose upper-case form is an upper-case word holds only ASCII
      letters and underscores. */
  lemma {:induction false} TokenOfUpperWord(t: string, w: string)
    requires ToUpperCase(t) == w && IsUpperToken(w)
    ensures forall k :: 0 <= k < |t| ==> IsAsciiLetterOrUnderscore(t[k])
  {
    forall k | 0 <= k < |t|
      ensures IsAsciiLetterOrUnderscore(t[k])
    {
      assert ToUpperCase(t)[k] == UpperChar(t[k]);
      UpperCharPreimage(t[k]);
    }
  }

  /** The column and direction interpolated into ORDER BY consist of ASCII
      letters and underscores only, whatever the caller sent, and
      sanitising again changes nothing. */
  lemma SortTokensAreSafe(sortBy: string, sortOrder: string)
    ensures forall k :: 0 <= k < |SanitizeSortBy(sortBy)| ==> IsAsciiLetterOrUnderscore(SanitizeSortBy(sortBy)[k])
    ensures forall k :: 0 <= k < |SanitizeSortOrder(sortOrder)| ==> IsAsciiLetterOrUnderscore(SanitizeSortOrder(sortOrder)[k])
    ensures SanitizeSortBy(SanitizeSortBy(sortBy)) == SanitizeSortBy(sortBy)
    ensures SanitizeSortOrder(SanitizeSortOrder(sortOrder)) == SanitizeSortOrder(sortOrder)
  {
    SortWordsAreUpperTokens();
    var c := SanitizeSortBy(sortBy);
    TokenOfUpperWord(c, ToUpperCase(c));
    var d := SanitizeSortOrder(sortOrder);
    TokenOfUpperWord(d, ToUpperCase(d));
  }

  /** The rows window: skip `offset` rows, then fetch `limit`. */
  datatype Window = Window(offset: int, limit: int)

  /** The listing query: predicates, sanitised ORDER BY tokens, window. */
  datatype DataQuery = DataQuery(predicates: seq<Predicate>, sortColumn: string, sortDirection: string, window: Window)

  /** The count query: predicates only. */
  datatype CountQuery = CountQuery(predicates: seq<Predicate>)

  /** `getPaginatedProducts`: the predicates, the sort clause and the
      window `(page - 1) * limit`, with page 1, limit 5, PRODUCTID and DESC
      for arguments left undefined. Page and limit are not clamped. */
  function GetPaginatedProducts(f: FilterSet, a: PageArgs): (q: DataQuery)
    ensures q.predicates == PaginatedPredicates(f)
    ensures ToUpperCase(q.sortColumn) in ValidSortColumns && IsSortDirection(q.sortDirection)
    ensures q.window.limit == a.limit.GetOr(5)
    ensures q.window.offset == (a.page.GetOr(1) - 1) * q.window.limit
    ensures a.sortBy.None? ==> q.sortColumn == "PRODUCTID"
    ensures a.sortOrder.None? ==> q.sortDirection == "DESC"
    ensures a.sortBy.Some? ==> q.sortColumn == SanitizeSortBy(a.sortBy.value)
    ensures a.sortOrder.Some? ==> q.sortDirection == SanitizeSortOrder(a.sortOrder.value)
  {
    DefaultSortKept();
    var page := a.page.GetOr(1);
    var limit := a.limit.GetOr(5);
    var sortBy := SanitizeSortBy(a.sortBy.GetOr("PRODUCTID"));
    var sortOrder := SanitizeSortOrder(a.sortOrder.GetOr("DESC"));
    DataQuery(PaginatedPredicates(f), sortBy, sortOrder, Window((page - 1) * limit, limit))
  }

  /** `getTotalProductCount`: the count query over the same filters. */
  function GetTotalProductCount(f: FilterSet): (q: CountQuery)
    ensures q.predicates == PaginatedPredicates(f)
  {
    PredicateParity(f);
    CountQuery(CountPredicates(f))
  }

  // ---------------------------------------------------------------------
  // Statements as sent to the store.
  // ---------------------------------------------------------------------

  function IntBinding(name: string, n: int): Binding {
    Binding(name, IntParam(Finite(n as real)))
  }

  const DataHead: string := "\n        SELECT * "
  const CountHead: string := "SELECT COUNT(*) as total "

  /** What follows the WHERE text: the sort tokens interpolated into
      ORDER BY, then the window on the `offset` and `limit` parameters. */
  function SortAndWindowText(column: string, direction: string): string {
    "\n        ORDER BY " + column + " " + direction
    + "\n        OFFSET @offset ROWS FETCH NEXT @limit ROWS ONLY\n      "
  }

  /** The listing statement: the WHERE text right after `SELECT *`, then
      the sort clause; it binds every predicate's parameter in order,
      followed by `offset` and `limit`. */
  function DataStatement(q: DataQuery): (st: Statement)
    ensures |DataHead| + |WhereText(q.predicates)| <= |st.text|
    ensures st.text[..|DataHead|] == DataHead
    ensures st.text[|DataHead|..|DataHead| + |WhereText(q.predicates)|] == WhereText(q.predicates)
    ensures st.text[|DataHead| + |WhereText(q.predicates)|..] == SortAndWindowText(q.sortColumn, q.sortDirection)
    ensures |st.bindings| == |q.predicates| + 2
    ensures forall i :: 0 <= i < |q.predicates| ==> st.bindings[i] == Binding(q.predicates[i].param, q.predicates[i].value)
    ensures st.bindings[|q.predicates|] == IntBinding("offset", q.window.offset)
    ensures st.bindings[|q.predicates| + 1] == IntBinding("limit", q.window.limit)
  {
    Statement(
      DataHead + WhereText(q.predicates) + SortAndWindowText(q.sortColumn, q.sortDirection),
      BindingsOf(q.predicates) + [IntBinding("offset", q.window.offset), IntBinding("limit", q.window.limit)])
  }

  /** The count statement: `SELECT COUNT(*)` over the WHERE text, binding
      exactly the predicates' parameters in order. */
  function CountStatement(q: CountQuery): (st: Statement)
    ensures |CountHead| <= |st.text|
    ensures st.text[..|CountHead|] == CountHead && st.text[|CountHead|..] == WhereText(q.predicates)
    ensures |st.bindings| == |q.predicates|
    ensures forall i :: 0 <= i < |q.predicates| ==> st.bindings[i] == Binding(q.predicates[i].param, q.predicates[i].value)
  {
    Statement(CountHead + WhereText(q.predicates), BindingsOf(q.predicates))
  }

  /** The count statement applies the data statement's WHERE text and
      binds the same parameters, less the window's `offset` and `limit`. */
  lemma CountMatchesDataStatement(f: FilterSet, a: PageArgs)
    ensures var data := GetPaginatedProducts(f, a);
            var count := CountStatement(GetTotalProductCount(f));
            && count.text == CountHead + WhereText(data.predicates)
            && DataStatement(data).bindings
               == count.bindings + [IntBinding("offset", data.window.offset), IntBinding("limit", data.window.limit)]
  {
  }

  lemma SameShapesConcat(a: seq<Predicate>, b: seq<Predicate>, c: seq<Predicate>, d: seq<Predicate>)
    requires SameShapes(a, c) && SameShapes(b, d)
    ensures SameShapes(a + b, c + d)
  {
    forall i | 0 <= i < |a + b|
      ensures SameShape((a + b)[i], (c + d)[i])
    {
      if i >= |a| {
        assert (a + b)[i] == b[i - |a|] && (c + d)[i] == d[i - |a|];
      }
    }
  }

  /** Filter sets with the same filters present select predicates of the
      same shape. */
  lemma {:induction false} SelectedSameShapes(f: FilterSet, g: FilterSet, slots: seq<Slot>)
    requires forall s :: Emits(f, s) <==> Emits(g, s)
    ensures SameShapes(Selected(f, slots), Selected(g, slots))
    decreases slots
  {
    if slots != [] {
      SelectedSameShapes(f, g, slots[1..]);
      SameShapesConcat(Contribution(f, slots[0]), Selected(f, slots[1..]), Contribution(g, slots[0]), Selected(g, slots[1..]));
    }
  }

  /** No filter value ever reaches the SQL text: two requests whose filters
      are present in the same places and which ask for the same sort get
      byte-identical data and count statements; the values differ only in
      the bindings. */
  lemma FilterValuesNeverInText(f: FilterSet, g: FilterSet, a: PageArgs, b: PageArgs)
    requires forall s :: Emits(f, s) <==> Emits(g, s)
    requires a.sortBy == b.sortBy && a.sortOrder == b.sortOrder
    ensures DataStatement(GetPaginatedProducts(f, a)).text == DataStatement(GetPaginatedProducts(g, b)).text
    ensures CountStatement(GetTotalProductCount(f)).text == CountStatement(GetTotalProductCount(g)).text
  {
    SelectedSameShapes(f, g, SlotOrder);
    ClausesTextIgnoresValues(PaginatedPredicates(f), PaginatedPredicates(g));
  }

  /** `getAllProducts`: a fixed statement; it ignores any filters. */
  const AllProductsStatement: Statement := Statement("SELECT * FROM PRODUCTS ORDER BY PRODUCTID DESC", [])

  /** `searchProducts`: a fixed statement binding `%term%`. */
  function SearchStatement(term: string): (st: Statement)
    ensures st.bindings == [Binding("searchTerm", NVarCharParam("%" + term + "%"))]
  {
    Statement("SELECT * FROM PRODUCTS WHERE PRODUCTNAME LIKE @searchTerm ORDER BY PRODUCTID DESC",
              [Binding("searchTerm", NVarCharParam("%" + term + "%"))])
  }

  /** The search term reaches the store only as a bound parameter. */
  lemma SearchTermNeverInText(t: string, u: string)
    ensures SearchStatement(t).text == SearchStatement(u).text
  {
  }

  // ---------------------------------------------------------------------
  // Single-row lookup and delete over an abstract store.
  // ---------------------------------------------------------------------

  /** The PRODUCTS table keyed by PRODUCTID. */
  type Store = map<int, Product>

  /** `getProductById`. The id is the result of `parseInt`; `None` (NaN)
      matches no row. */
  function GetProductById(store: Store, id: Option<int>): (r: Option<Product>)
    ensures r.Some? <==> id.Some? && id.value in store
    ensures r.Some? ==> r.value == store[id.value]
  {
    if id.Some? && id.value in store then Some(store[id.value]) else None
  }

  /** `productExists`. */
  function ProductExists(store: Store, id: Option<int>): (b: bool)
    ensures b <==> id.Some? && id.value in store
  {
    GetProductById(store, id) != None
  }

  /** `deleteProduct`: the row as it was before deletion, or `None` when
      there is none, together with the store afterwards. */
  function DeleteProduct(store: Store, id: Option<int>): (r: (Option<Product>, Store))
    ensures r.0 == GetProductById(store, id)
  {
    var product := GetProductById(store, id);
    if product.None? then (None, store) else (product, store - {id.value})
  }

  /** Deleting an absent id returns nothing and leaves the store alone;
      deleting a present one returns the prior row, after which that id is
      gone and every other row is untouched; a second delete finds
      nothing. */
  lemma DeleteRemovesExactlyOneRow(store: Store, id: Option<int>)
    ensures !ProductExists(store, id) ==> DeleteProduct(store, id) == (None, store)
    ensures ProductExists(store, id) ==> DeleteProduct(store, id).0 == Some(store[id.value])
    ensures !ProductExists(DeleteProduct(store, id).1, id)
    ensures forall k :: (id.None? || k != id.value) ==>
              (k in DeleteProduct(store, id).1 <==> k in store)
              && (k in store ==> DeleteProduct(store, id).1[k] == store[k])
    ensures DeleteProduct(DeleteProduct(store, id).1, id).0 == None
  {
  }

  // ---------------------------------------------------------------------
  // Running the statements. The store is an oracle; every failure is
  // re-thrown as a new Error whose message is prefixed with the operation.
  // ---------------------------------------------------------------------

  /** The database as the model sees it: the rows by id, and what a listing
      or count statement returns or throws. */
  datatype Db = Db(store: Store, fetch: Statement -> Outcome<seq<Product>>, count: Statement -> Outcome<nat>)

  /** The `catch` of every model method: `throw new Error(context + error.message)`. */
  function Rethrow<T>(context: string, o: Outcome<T>): (r: Outcome<T>)
    ensures o.Ok? ==> r == o
    ensures o.Threw? ==> r == Threw(NewError(context + o.error.message))
  {
    match o
    case Ok(v) => Ok(v)
    case Threw(e) => Threw(NewError(context + e.message))
  }

  const PaginatedContext: string := "Error fetching paginated products: "
  const CountContext: string := "Error getting product count: "
  const AllContext: string := "Error fetching products: "
  const SearchContext: string := "Error searching products: "

  /** `getPaginatedProducts` against the store: the rows of the listing
      statement on success, otherwise the store's failure re-thrown with
      the listing context. */
  function FetchPaginatedProducts(db: Db, f: FilterSet, a: PageArgs): (o: Outcome<seq<Product>>)
    ensures var st := db.fetch(DataStatement(GetPaginatedProducts(f, a)));
            && (o.Ok? <==> st.Ok?)
            && (o.Ok? ==> o.value == st.value)
            && (o.Threw? ==> IsModelError(o.error) && o.error.message == PaginatedContext + st.error.message)
  {
    RethrowWraps(PaginatedContext, db.fetch(DataStatement(GetPaginatedProducts(f, a))));
    Rethrow(PaginatedContext, db.fetch(DataStatement(GetPaginatedProducts(f, a))))
  }

  /** `getTotalProductCount` against the store: the count of the count
      statement, or its failure re-thrown with the count context. */
  function FetchTotalProductCount(db: Db, f: FilterSet): (o: Outcome<nat>)
    ensures var st := db.count(CountStatement(GetTotalProductCount(f)));
            && (o.Ok? <==> st.Ok?)
            && (o.Ok? ==> o.value == st.value)
            && (o.Threw? ==> IsModelError(o.error) && o.error.message == CountContext + st.error.message)
  {
    RethrowWraps(CountContext, db.count(CountStatement(GetTotalProductCount(f))));
    Rethrow(CountContext, db.count(CountStatement(GetTotalProductCount(f))))
  }

  /** `getAllProducts`: every row newest id first, or the failure re-thrown. */
  function FetchAllProducts(db: Db): (o: Outcome<seq<Product>>)
    ensures var st := db.fetch(AllProductsStatement);
            && (o.Ok? <==> st.Ok?)
            && (o.Ok? ==> o.value == st.value)
            && (o.Threw? ==> IsModelError(o.error) && o.error.message == AllContext + st.error.message)
  {
    RethrowWraps(AllContext, db.fetch(AllProductsStatement));
    Rethrow(AllContext, db.fetch(AllProductsStatement))
  }

  /** `searchProducts`: the rows of the search statement, or the failure
      re-thrown with the search context. */
  function FetchSearchProducts(db: Db, term: string): (o: Outcome<seq<Product>>)
    ensures var st := db.fetch(SearchStatement(term));
            && (o.Ok? <==> st.Ok?)
            && (o.Ok? ==> o.value == st.value)
            && (o.Threw? ==> IsModelError(o.error) && o.error.message == SearchContext + st.error.message)
  {
    RethrowWraps(SearchContext, db.fetch(SearchStatement(term)));
    Rethrow(SearchContext, db.fetch(SearchStatement(term)))
  }

  /** An error as the model re-throws it: a plain `Error`, without a code. */
  predicate IsModelError(e: JsError) {
    e.name == "Error" && e.code.None?
  }

  /** A failure passed through `Rethrow` is a model error carrying the
      context and the original message. */
  lemma RethrowWraps<T>(context: string, o: Outcome<T>)
    ensures Rethrow(context, o).Threw? <==> o.Threw?
    ensures Rethrow(context, o).Threw? ==>
              IsModelError(Rethrow(context, o).error) && Rethrow(context, o).error.message == context + o.error.message
  {
  }
}

=== FILE: product_row.dfy ===
/** The record the store holds and the endpoints return. */
module ProductRow {

  /** A row of the PRODUCTS table. */
  datatype Product = Product(id: int, name: string, price: real, stock: int, createdAt: int)
}

=== FILE: response.dfy ===
/** The JSON envelopes every endpoint answers with (`successResponse`,
    `errorResponse`, `paginatedResponse`) and the pagination arithmetic. */
module Response {
  import opened Wrappers
  import opened ProductRow

  /** The value of an envelope's `message` field: a string, or whatever
      non-string value a caller passed in its place. */
  datatype Message = Text(text: string) | Flag(flag: bool)

  /** The `data` an endpoint returns. */
  datatype Payload = OneProduct(product: Product) | ProductList(products: seq<Product>)

  /** The `meta` object of the search endpoint. */
  datatype Meta = SearchMeta(count: nat, searchTerm: string)

  /** `Math.ceil(total / limit)`: a whole number, or Infinity / NaN when
      `limit` is 0. */
  datatype PageTotal = Pages(count: int) | InfinitePages | NaNPages

  datatype Pagination = Pagination(
    currentPage: int,
    itemsPerPage: int,
    totalItems: nat,
    totalPages: PageTotal,
    hasNextPage: bool,
    hasPreviousPage: bool)

  /** A response: HTTP status and JSON body; a `None` field is absent from
      the body. */
  datatype Envelope = Envelope(
    status: int,
    success: bool,
    message: Message,
    data: Option<Payload>,
    meta: Option<Meta>,
    errors: Option<seq<string>>,
    pagination: Option<Pagination>)

  /** The two body shapes: a success carries `data` and never `errors`; a
      failure carries neither `data`, `meta` nor `pagination`, and an
      `errors` field only when it lists something. */
  predicate WellShaped(e: Envelope) {
    if e.success then e.data.Some? && e.errors.None?
    else e.data.None? && e.meta.None? && e.pagination.None?
         && (e.errors.Some? ==> |e.errors.value| > 0)
  }

  /** `successResponse(res, data, message = 'Success', meta = null,
      statusCode = 200)`; `meta` appears only when given. */
  function SuccessResponse(data: Payload, message: Option<Message>, meta: Option<Meta>, statusCode: Option<int>): (r: Envelope)
    ensures WellShaped(r) && r.success
    ensures r.status == statusCode.GetOr(200) && r.message == message.GetOr(Text("Success"))
    ensures r.data == Some(data) && r.meta == meta && r.pagination.None?
  {
    Envelope(statusCode.GetOr(200), true, message.GetOr(Text("Success")), Some(data), meta, None, None)
  }

  /** `errorResponse(res, message = 'Error occurred', statusCode = 500,
      errors = null)`; `errors` appears only for a non-empty list. */
  function ErrorResponse(message: Option<Message>, statusCode: Option<int>, errors: Option<seq<string>>): (r: Envelope)
    ensures WellShaped(r) && !r.success
    ensures r.status == statusCode.GetOr(500) && r.message == message.GetOr(Text("Error occurred"))
    ensures r.errors.Some? <==> errors.Some? && |errors.value| > 0
    ensures r.errors.Some? ==> r.errors == errors
  {
    var included := if errors.Some? && |errors.value| > 0 then errors else None;
    Envelope(statusCode.GetOr(500), false, message.GetOr(Text("Error occurred")), None, None, included, None)
  }

  /** `Math.ceil` on a rational. */
  function Ceil(x: real): int {
    -((-x).Floor)
  }

  lemma CeilBounds(x: real)
    ensures x <= Ceil(x) as real < x + 1.0
  {
  }

  /** `Math.ceil(total / limit)`. */
  function TotalPages(total: nat, limit: int): (r: PageTotal)
    ensures limit != 0 <==> r.Pages?
  {
    if limit == 0 then (if total == 0 then NaNPages else InfinitePages)
    else Pages(Ceil(total as real / limit as real))
  }

  /** JavaScript's `page < totalPages`; comparisons with NaN are false. */
  predicate Below(page: int, t: PageTotal) {
    match t
    case Pages(n) => page < n
    case InfinitePages => true
    case NaNPages => false
  }

  /** `paginatedResponse(res, data, page, limit, total, message =
      'Success')`: page, limit and total echoed, the page count and the
      next/previous flags derived, always status 200. */
  function PaginatedResponse(data: Payload, page: int, limit: int, total: nat, message: Option<Message>): (r: Envelope)
    ensures WellShaped(r) && r.success && r.status == 200
    ensures r.message == message.GetOr(Text("Success")) && r.data == Some(data) && r.meta.None?
    ensures r.pagination.Some?
    ensures var p := r.pagination.value;
            && p.currentPage == page && p.itemsPerPage == limit && p.totalItems == total
            && p.totalPages == TotalPages(total, limit)
            && p.hasNextPage == Below(page, p.totalPages)
            && p.hasPreviousPage == (page > 1)
  {
    var totalPages := TotalPages(total, limit);
    var pagination := Pagination(page, limit, total, totalPages, Below(page, totalPages), page > 1);
    Envelope(200, true, message.GetOr(Text("Success")), Some(data), None, None, Some(pagination))
  }

  /** For a positive page size the page count is the integer ceiling of
      `total / limit`: the least `n` with `n * limit >= total`, so no rows
      give no pages. */
  lemma {:induction false} TotalPagesIsCeiling(total: nat, limit: int)
    requires limit >= 1
    ensures TotalPages(total, limit) == Pages((total + limit - 1) / limit)
    ensures var n := TotalPages(total, limit).count;
            n >= 0 && (n - 1) * limit < total <= n * limit
    ensures total == 0 ==> TotalPages(total, limit) == Pages(0)
  {
    var c := Ceil(total as real / limit as real);
    CeilOfQuotient(total, limit);
    var d := (total + limit - 1) / limit;
    DivisionCeiling(total, limit);
    CeilingUnique(total, limit, c, d);
    if total == 0 {
      assert d == (limit - 1) / limit == 0;
    }
  }

  /** The real ceiling of `total / limit` brackets `total` between
      consecutive multiples of `limit`. */
  lemma CeilOfQuotient(total: nat, limit: int)
    requires limit >= 1
    ensures var c := Ceil(total as real / limit as real);
            (c - 1) * limit < total <= c * limit
  {
    var t := total as real;
    var l := limit as real;
    var x := t / l;
    var c := Ceil(x);
    CeilBounds(x);
    ScaleBounds(x, c as real, l, t);
    IntRealMul(c, limit);
    assert total <= c * limit < total + limit;
    assert (c - 1) * limit == c * limit - limit;
  }

  /** Scaling `x <= c < x + 1` by the positive `l` with `x * l == t`. */
  lemma ScaleBounds(x: real, c: real, l: real, t: real)
    requires l > 0.0 && x == t / l && x <= c < x + 1.0
    ensures t <= c * l < t + l
  {
    assert x * l == t;
    RealScale(c, x, l);
    RealScale(x + 1.0, c, l);
    assert (x + 1.0) * l == x * l + l;
  }

  lemma IntRealMul(a: int, b: int)
    ensures (a * b) as real == (a as real) * (b as real)
  {
  }

  lemma RealScale(a: real, b: real, k: real)
    requires k > 0.0 && a >= b
    ensures a * k >= b * k
    ensures a > b ==> a * k > b * k
  {
  }

  lemma DivisionCeiling(total: nat, limit: int)
    requires limit >= 1
    ensures var d := (total + limit - 1) / limit;
            (d - 1) * limit < total <= d * limit
  {
    var d := (total + limit - 1) / limit;
    var m := (total + limit - 1) % limit;
    assert total + limit - 1 == d * limit + m;
    assert (d - 1) * limit == d * limit - limit;
  }

  lemma CeilingUnique(total: int, limit: int, c: int, d: int)
    requires limit >= 1
    requires (c - 1) * limit < total <= c * limit
    requires (d - 1) * limit < total <= d * limit
    ensures c == d
  {
    if c < d {
      assert c <= d - 1;
      MulMonotone(c, d - 1, limit);
    } else if d < c {
      assert d <= c - 1;
      MulMonotone(d, c - 1, limit);
    }
  }

  lemma MulMonotone(a: int, b: int, k: int)
    requires a <= b && k >= 0
    ensures a * k <= b * k
  {
  }

  /** With a positive page size and page, `hasNextPage` says exactly that
      rows remain past the current window `[(page - 1) * limit, page *
      limit)`, and `hasPreviousPage` that the window does not start at row
      0. */
  lemma {:induction false} FlagsMatchWindow(page: int, limit: int, total: nat)
    requires limit >= 1 && page >= 1
    ensures var p := PaginatedResponse(ProductList([]), page, limit, total, None).pagination.value;
            && (p.hasNextPage <==> page * limit < total)
            && (p.hasPreviousPage <==> (page - 1) * limit > 0)
  {
    TotalPagesIsCeiling(total, limit);
    var n := TotalPages(total, limit).count;
    if page < n {
      MulMonotone(page, n - 1, limit);
    }
    if page * limit < total {
      if page >= n {
        MulMonotone(n, page, limit);
      }
    }
    if page > 1 {
      MulMonotone(1, page - 1, limit);
    }
  }

  /** Twelve rows, five per page: three pages; page 1 has a next page and
      no previous one, page 3 the reverse. */
  lemma TwelveRowsFivePerPage()
    ensures var first := PaginatedResponse(ProductList([]), 1, 5, 12, None).pagination.value;
            first.totalPages == Pages(3) && first.hasNextPage && !first.hasPreviousPage
    ensures var last := PaginatedResponse(ProductList([]), 3, 5, 12, None).pagination.value;
            last.totalPages == Pages(3) && !last.hasNextPage && last.hasPreviousPage
  {
    TotalPagesIsCeiling(12, 5);
  }
}

=== FILE: sql.dfy ===
/** The shape of the parameterised SQL statements the product model sends:
    WHERE-clause predicate descriptors, bound parameters and statement text. */
module Sql {
  import opened JsValue

  /** The PRODUCTS columns a filter can constrain. */
  datatype Column = ProductName | Price | Stock | CreatedAt

  function ColumnName(c: Column): string {
    match c
    case ProductName => "PRODUCTNAME"
    case Price => "PRICE"
    case Stock => "STOCK"
    case CreatedAt => "CREATED_AT"
  }

  datatype Op = Like | AtLeast | AtMost

  function OpText(op: Op): string {
    match op
    case Like => "LIKE"
    case AtLeast => ">="
    case AtMost => "<="
  }

  /** A bound parameter value together with its declared SQL type. A
      `DateTimeParam` carries the text the driver's `new Date(...)` is built
      from. */
  datatype ParamValue =
    | NVarCharParam(text: string)
    | DecimalParam(number: Number)
    | IntParam(number: Number)
    | DateTimeParam(source: string)

  /** One WHERE-clause condition `column op @param`, with the value bound to
      `@param`. */
  datatype Predicate = Predicate(column: Column, op: Op, param: string, value: ParamValue)

  /** A call `request.input(name, type, value)`. */
  datatype Binding = Binding(name: string, value: ParamValue)

  /** A statement as sent to the store: SQL text plus bound parameters. */
  datatype Statement = Statement(text: string, bindings: seq<Binding>)

  /** The text one predicate appends to the query: only the column, the
      operator and the parameter's name, never its value. */
  function ClauseText(p: Predicate): string {
    " AND " + ColumnName(p.column) + " " + OpText(p.op) + " @" + p.param
  }

  function ClausesText(ps: seq<Predicate>): string {
    if ps == [] then "" else ClauseText(ps[0]) + ClausesText(ps[1..])
  }

  const BaseWhere: string := "FROM PRODUCTS WHERE 1=1"

  /** The FROM/WHERE part shared by the data and the count statement. */
  function WhereText(ps: seq<Predicate>): string {
    BaseWhere + ClausesText(ps)
  }

  /** The parameter bindings the predicates contribute, in order. */
  function BindingsOf(ps: seq<Predicate>): (bs: seq<Binding>)
    ensures |bs| == |ps|
    ensures forall i :: 0 <= i < |ps| ==> bs[i] == Binding(ps[i].param, ps[i].value)
  {
    if ps == [] then [] else [Binding(ps[0].param, ps[0].value)] + BindingsOf(ps[1..])
  }

  /** Two predicates that differ at most in their bound value. */
  predicate SameShape(p: Predicate, q: Predicate) {
    p.column == q.column && p.op == q.op && p.param == q.param
  }

  predicate SameShapes(ps: seq<Predicate>, qs: seq<Predicate>) {
    |ps| == |qs| && forall i :: 0 <= i < |ps| ==> SameShape(ps[i], qs[i])
  }

  /** The clause text does not depend on the bound values: predicate lists
      of the same shape render to the same text. */
  lemma {:induction false} ClausesTextIgnoresValues(ps: seq<Predicate>, qs: seq<Predicate>)
    requires SameShapes(ps, qs)
    ensures ClausesText(ps) == ClausesText(qs)
  {
    if ps != [] {
      assert SameShape(ps[0], qs[0]);
      assert SameShapes(ps[1..], qs[1..]) by {
        forall i | 0 <= i < |ps| - 1
          ensures SameShape(ps[1..][i], qs[1..][i])
        {
          assert SameShape(ps[i + 1], qs[i + 1]);
        }
      }
      ClausesTextIgnoresValues(ps[1..], qs[1..]);
    }
  }
}

=== FILE: validator.dfy ===
/** The request middlewares of the write routes: product-field validation
    with ordered error accumulation, id validation, angle-bracket
    sanitisation of the name, and the non-empty-body check. */
module Validator {
  import opened Wrappers
  import opened JsValue
  import opened JsString
  import opened Response

  /** A parsed JSON request body. */
  type Body = map<string, Field>

  /** `req.body[key]`; an absent key reads as `undefined`. */
  function FieldOf(body: Body, key: string): Field {
    if key in body then body[key] else Undefined
  }

  /** What a middleware does: call `next()`, or answer the request. */
  datatype Gate = Next | Reject(response: Envelope)

  const NameRequired: string := "Product name is required and cannot be empty"
  const NameTooLong: string := "Product name cannot exceed 100 characters"
  const PriceRequired: string := "Price is required"
  const PriceNotNumber: string := "Price must be a valid number"
  const PriceNegative: string := "Price must be a positive number"
  const PriceTooLarge: string := "Price cannot exceed 99999999.99"
  const StockRequired: string := "Stock is required"
  const StockNotInteger: string := "Stock must be a valid integer"
  const StockNegative: string := "Stock must be a positive integer"
  const StockTooLarge: string := "Stock value is too large"

  const MaxNameLength: nat := 100
  const MaxPrice: real := 99999999.99
  const MaxStock: int := 2147483647

  /** `x === undefined || x === null || x === ''`. */
  predicate Missing(f: Field) {
    f == Undefined || f == Null || f == Str("")
  }

  /** The single error, if any, for the `name` field: required unless it is
      a string with something left after trimming; too long past 100 UTF-16
      code units once trimmed. */
  function NameError(name: Field): (e: Option<string>)
    ensures e == Some(NameRequired) <==> !(name.Str? && Trim(name.s) != "")
    ensures e == Some(NameTooLong) <==> name.Str? && Trim(name.s) != "" && Utf16Length(Trim(name.s)) > MaxNameLength
    ensures e.None? <==> name.Str? && Trim(name.s) != "" && Utf16Length(Trim(name.s)) <= MaxNameLength
  {
    if !FieldTruthy(name) || !name.Str? || Trim(name.s) == "" then Some(NameRequired)
    else if Utf16Length(Trim(name.s)) > MaxNameLength then Some(NameTooLong)
    else None
  }

  /** The single error, if any, for the `price` field, first match wins:
      missing, not a number, negative, above 99999999.99. */
  function PriceError(rt: Runtime, price: Field): (e: Option<string>)
    ensures e == Some(PriceRequired) <==> Missing(price)
    ensures e == Some(PriceNotNumber) <==> !Missing(price) && rt.parseFloat(ToStr(rt, price)).None?
    ensures e == Some(PriceNegative) <==>
              !Missing(price) && rt.parseFloat(ToStr(rt, price)).Some? && rt.parseFloat(ToStr(rt, price)).value < 0.0
    ensures e == Some(PriceTooLarge) <==>
              !Missing(price) && rt.parseFloat(ToStr(rt, price)).Some? && rt.parseFloat(ToStr(rt, price)).value > MaxPrice
    ensures e.None? <==>
              !Missing(price) && rt.parseFloat(ToStr(rt, price)).Some? && 0.0 <= rt.parseFloat(ToStr(rt, price)).value <= MaxPrice
  {
    if Missing(price) then Some(PriceRequired)
    else
      var value := rt.parseFloat(ToStr(rt, price));
      if value.None? then Some(PriceNotNumber)
      else if value.value < 0.0 then Some(PriceNegative)
      else if value.value > MaxPrice then Some(PriceTooLarge)
      else None
  }

  /** The single error, if any, for the `stock` field, first match wins:
      missing; `parseInt` gives NaN or `Number(stock)` is not an integer;
      negative; above 2147483647. */
  function StockError(rt: Runtime, stock: Field): (e: Option<string>)
    ensures e == Some(StockRequired) <==> Missing(stock)
    ensures e == Some(StockNotInteger) <==>
              !Missing(stock) && (rt.parseInt(ToStr(rt, stock)).None? || !IsInteger(ToNumber(rt, stock)))
    ensures e == Some(StockNegative) <==>
              !Missing(stock) && rt.parseInt(ToStr(rt, stock)).Some? && IsInteger(ToNumber(rt, stock))
              && rt.parseInt(ToStr(rt, stock)).value < 0
    ensures e == Some(StockTooLarge) <==>
              !Missing(stock) && rt.parseInt(ToStr(rt, stock)).Some? && IsInteger(ToNumber(rt, stock))
              && rt.parseInt(ToStr(rt, stock)).value > MaxStock
    ensures e.None? <==>
              !Missing(stock) && rt.parseInt(ToStr(rt, stock)).Some? && IsInteger(ToNumber(rt, stock))
              && 0 <= rt.parseInt(ToStr(rt, stock)).value <= MaxStock
  {
    if Missing(stock) then Some(StockRequired)
    else
      var value := rt.parseInt(ToStr(rt, stock));
      if value.None? || !IsInteger(ToNumber(rt, stock)) then Some(StockNotInteger)
      else if value.value < 0 then Some(StockNegative)
      else if value.value > MaxStock then Some(StockTooLarge)
      else None
  }

  /** The three fields `validateProduct` checks, in the order it checks
      them. */
  datatype Checked = NameField | PriceField | StockField

  function CheckRank(c: Checked): nat {
    match c
    case NameField => 0
    case PriceField => 1
    case StockField => 2
  }

  /** An entry of the error list, with the field it is about. */
  datatype FieldError = FieldError(field: Checked, message: string)

  function Entry(c: Checked, e: Option<string>): seq<FieldError> {
    if e.Some? then [FieldError(c, e.value)] else []
  }

  /** Whether the error list has an entry for field `c`. */
  predicate Lists(errors: seq<FieldError>, c: Checked) {
    exists i :: 0 <= i < |errors| && errors[i].field == c
  }

  /** The errors `validateProduct` collects, in the order name, price,
      stock: a field appears exactly when its check fails, with that
      check's message, and at most once. */
  function ValidationErrors(rt: Runtime, body: Body): (errors: seq<FieldError>)
    ensures |errors| <= 3
    ensures forall i, j :: 0 <= i < j < |errors| ==> CheckRank(errors[i].field) < CheckRank(errors[j].field)
    ensures NameError(FieldOf(body, "name")).Some? <==> Lists(errors, NameField)
    ensures PriceError(rt, FieldOf(body, "price")).Some? <==> Lists(errors, PriceField)
    ensures StockError(rt, FieldOf(body, "stock")).Some? <==> Lists(errors, StockField)
    ensures forall i :: 0 <= i < |errors| && errors[i].field == NameField ==> NameError(FieldOf(body, "name")) == Some(errors[i].message)
    ensures forall i :: 0 <= i < |errors| && errors[i].field == PriceField ==> PriceError(rt, FieldOf(body, "price")) == Some(errors[i].message)
    ensures forall i :: 0 <= i < |errors| && errors[i].field == StockField ==> StockError(rt, FieldOf(body, "stock")) == Some(errors[i].message)
  {
    var name := NameError(FieldOf(body, "name"));
    var price := PriceError(rt, FieldOf(body, "price"));
    var stock := StockError(rt, FieldOf(body, "stock"));
    EntriesInOrder(name, price, stock);
    Entry(NameField, name) + Entry(PriceField, price) + Entry(StockField, stock)
  }

  /** Laying the three per-field entries out one after another keeps them
      in field order and loses none. */
  lemma EntriesInOrder(name: Option<string>, price: Option<string>, stock: Option<string>)
    ensures var errors := Entry(NameField, name) + Entry(PriceField, price) + Entry(StockField, stock);
            && |errors| <= 3
            && (forall i, j :: 0 <= i < j < |errors| ==> CheckRank(errors[i].field) < CheckRank(errors[j].field))
            && (name.Some? <==> Lists(errors, NameField))
            && (price.Some? <==> Lists(errors, PriceField))
            && (stock.Some? <==> Lists(errors, StockField))
            && (forall i :: 0 <= i < |errors| && errors[i].field == NameField ==> name == Some(errors[i].message))
            && (forall i :: 0 <= i < |errors| && errors[i].field == PriceField ==> price == Some(errors[i].message))
            && (forall i :: 0 <= i < |errors| && errors[i].field == StockField ==> stock == Some(errors[i].message))
  {
    var n := Entry(NameField, name);
    var p := Entry(PriceField, price);
    var s := Entry(StockField, stock);
    var errors := n + p + s;
    assert forall i :: 0 <= i < |errors| ==>
      (i < |n| ==> errors[i] == n[i])
      && (|n| <= i < |n| + |p| ==> errors[i] == p[i - |n|])
      && (|n| + |p| <= i ==> errors[i] == s[i - |n| - |p|]);
    assert |n| > 0 ==> errors[0].field == NameField;
    assert |p| > 0 ==> errors[|n|].field == PriceField;
    assert |s| > 0 ==> errors[|n| + |p|].field == StockField;
  }

  /** The messages of the error list, in order. */
  function Messages(errors: seq<FieldError>): (m: seq<string>)
    ensures |m| == |errors|
    ensures forall i :: 0 <= i < |errors| ==> m[i] == errors[i].message
  {
    if errors == [] then [] else [errors[0].message] + Messages(errors[1..])
  }

  /** A body the PRODUCTS table accepts: a name of 1 to 100 UTF-16 code
      units after trimming, a price in [0, 99999999.99] and an integral
      stock in [0, 2147483647], read the way the middleware reads them. */
  predicate Acceptable(rt: Runtime, body: Body) {
    var name := FieldOf(body, "name");
    var price := FieldOf(body, "price");
    var stock := FieldOf(body, "stock");
    var priceValue := rt.parseFloat(ToStr(rt, price));
    var stockValue := rt.parseInt(ToStr(rt, stock));
    && name.Str? && Trim(name.s) != "" && Utf16Length(Trim(name.s)) <= MaxNameLength
    && !Missing(price) && priceValue.Some? && 0.0 <= priceValue.value <= MaxPrice
    && !Missing(stock) && stockValue.Some? && IsInteger(ToNumber(rt, stock)) && 0 <= stockValue.value <= MaxStock
  }

  lemma NoErrorsIffAcceptable(rt: Runtime, body: Body)
    ensures (NameError(FieldOf(body, "name")).None? && PriceError(rt, FieldOf(body, "price")).None?
             && StockError(rt, FieldOf(body, "stock")).None?) <==> Acceptable(rt, body)
  {
  }

  /** `validateProduct`: passes exactly the acceptable bodies and otherwise
      answers 400 "Validation failed" listing every error. */
  function ValidateProduct(rt: Runtime, body: Body): (g: Gate)
    ensures g.Next? <==> Acceptable(rt, body)
    ensures g.Reject? ==> g.response == ErrorResponse(Some(Text("Validation failed")), Some(400), Some(Messages(ValidationErrors(rt, body))))
    ensures g.Reject? ==> g.response.status == 400 && g.response.errors == Some(Messages(ValidationErrors(rt, body)))
  {
    NoErrorsIffAcceptable(rt, body);
    var errors := Messages(ValidationErrors(rt, body));
    if |errors| > 0 then Reject(ErrorResponse(Some(Text("Validation failed")), Some(400), Some(errors)))
    else Next
  }

  /** `validateId`: passes exactly an id that parses to a positive
      integer. */
  function ValidateId(rt: Runtime, id: Option<string>): (g: Gate)
    ensures g.Next? <==> Truthy(id) && rt.parseInt(id.value).Some? && rt.parseInt(id.value).value > 0
    ensures g.Reject? ==> g.response.status == 400 && !g.response.success
    ensures !Truthy(id) ==> g.Reject? && g.response.message == Text("ID parameter is required")
  {
    if !Truthy(id) then Reject(ErrorResponse(Some(Text("ID parameter is required")), Some(400), None))
    else
      var value := rt.parseInt(id.value);
      if value.None? || value.value <= 0 then Reject(ErrorResponse(Some(Text("ID must be a positive integer")), Some(400), None))
      else Next
  }

  /** The name as `sanitizeInput` rewrites it: angle brackets removed,
      then trimmed. */
  function SanitizeName(s: string): (r: string)
    ensures forall c :: c in r ==> c in s && !IsAngleBracket(c)
    ensures r == [] || (!IsWhiteSpace(r[0]) && !IsWhiteSpace(r[|r| - 1]))
    ensures var t := StripAngleBrackets(s);
            && LeadingSpace(t) + |r| <= |t|
            && r == t[LeadingSpace(t)..LeadingSpace(t) + |r|]
            && (forall k :: 0 <= k < LeadingSpace(t) ==> IsWhiteSpace(t[k]))
            && (forall k :: LeadingSpace(t) + |r| <= k < |t| ==> IsWhiteSpace(t[k]))
  {
    var stripped := StripAngleBrackets(s);
    TrimKeepsOnlyInputChars(stripped);
    Trim(stripped)
  }

  lemma TrimKeepsOnlyInputChars(s: string)
    ensures forall c :: c in Trim(s) ==> c in s
  {
    var r := Trim(s);
    var lead := LeadingSpace(s);
    forall c | c in r
      ensures c in s
    {
      var k :| 0 <= k < |r| && r[k] == c;
      assert s[lead + k] == c;
    }
  }

  /** Sanitising a sanitised name changes nothing. */
  lemma SanitizeNameIdempotent(s: string)
    ensures SanitizeName(SanitizeName(s)) == SanitizeName(s)
  {
    var once := SanitizeName(s);
    assert StripAngleBrackets(once) == once;
    assert once == Trim(StripAngleBrackets(s));
    TrimIdempotent(StripAngleBrackets(s));
  }

  /** The error `req.body.name.replace(...)` throws for a truthy name that
      is not a string. */
  const ReplaceNotAFunction: JsError := JsError("TypeError", "req.body.name.replace is not a function", None)

  /** `sanitizeInput`: a truthy string name is sanitised, every other field
      is left as it was; a truthy non-string name throws. */
  function SanitizeInput(body: Body): (r: Outcome<Body>)
    ensures !FieldTruthy(FieldOf(body, "name")) ==> r == Ok(body)
    ensures FieldTruthy(FieldOf(body, "name")) && !FieldOf(body, "name").Str? ==> r == Threw(ReplaceNotAFunction)
    ensures FieldOf(body, "name").Str? ==> r.Ok?
    ensures r.Ok? && FieldOf(body, "name").Str? ==>
              r.value.Keys == body.Keys
              && FieldOf(r.value, "name") == Str(if FieldOf(body, "name").s == "" then "" else SanitizeName(FieldOf(body, "name").s))
              && forall k :: k in body && k != "name" ==> r.value[k] == body[k]
  {
    var name := FieldOf(body, "name");
    if !FieldTruthy(name) then Ok(body)
    else if name.Str? then Ok(body["name" := Str(SanitizeName(name.s))])
    else Threw(ReplaceNotAFunction)
  }

  /** Running `sanitizeInput` twice gives the same body as running it
      once. */
  lemma SanitizeInputIdempotent(body: Body)
    requires SanitizeInput(body).Ok?
    ensures SanitizeInput(SanitizeInput(body).value) == SanitizeInput(body)
  {
    var name := FieldOf(body, "name");
    if FieldTruthy(name) && name.Str? {
      var t := SanitizeName(name.s);
      var once := body["name" := Str(t)];
      assert SanitizeInput(body) == Ok(once);
      SanitizeNameIdempotent(name.s);
      SanitizedNameIsFixed(once, t);
    }
  }

  /** A body whose name is already sanitised passes through unchanged. */
  lemma SanitizedNameIsFixed(body: Body, t: string)
    requires FieldOf(body, "name") == Str(t) && SanitizeName(t) == t
    ensures SanitizeInput(body) == Ok(body)
  {
    if t != "" {
      var name := FieldOf(body, "name");
      assert name.Str? && name.s == t && SanitizeName(name.s) == t;
      UpdateWithSameValue(body, "name");
    }
  }

  lemma UpdateWithSameValue(body: Body, key: string)
    requires key in body
    ensures body[key := body[key]] == body
  {
  }

  /** `validateBody`: rejects a missing body and one without keys. */
  function ValidateBody(body: Option<Body>): (g: Gate)
    ensures g.Next? <==> body.Some? && |body.value.Keys| > 0
    ensures g.Reject? ==> g.response == ErrorResponse(Some(Text("Request body is required")), Some(400), None)
  {
    if body.None? || |body.value.Keys| == 0 then Reject(ErrorResponse(Some(Text("Request body is required")), Some(400), None))
    else Next
  }

  /** `sanitizeInput` keeps the body's keys, so the `validateBody` verdict
      that precedes it on the write routes still holds after it. */
  lemma SanitizeKeepsBodyVerdict(body: Body)
    requires SanitizeInput(body).Ok?
    ensures SanitizeInput(body).value.Keys == body.Keys
    ensures ValidateBody(Some(SanitizeInput(body).value)) == ValidateBody(Some(body))
  {
    var name := FieldOf(body, "name");
    if FieldTruthy(name) && name.Str? {
      assert "name" in body;
      assert SanitizeInput(body).value.Keys == body.Keys + {"name"};
    }
  }

  /** A body `validateProduct` accepts is never refused by `validateBody`:
      it holds at least the `name` key. */
  lemma AcceptablePassesValidateBody(rt: Runtime, body: Body)
    requires Acceptable(rt, body)
    ensures "name" in body
    ensures ValidateBody(Some(body)).Next?
  {
    assert "name" in body.Keys;
  }
}

=== FILE: wrappers.dfy ===
/** Optional values: `None` stands for JavaScript's `undefined`/`null`/`NaN`
    wherever the source tests a value for absence. */
module Wrappers {

  datatype Option<+T> = None | Some(value: T) {

    /** The value, or `default` when absent (JavaScript's `x || default`
        when the only falsy inhabitant is absence). */
    function GetOr(default: T): T {
      match this
      case Some(v) => v
      case None => default
    }
  }
}
